=== FILE: README.md ===
# Cap detector decision layer, in Dafny

This project models the decision logic of a batch detector for coloured bottle caps
("tapones"). The detector segments photographs by fixed HSV colour ranges and records one
detection per blob. It later groups the detections by colour. OpenCV does the measuring. The
model takes those measurements as given inputs and states what the surrounding Python code
decides with them.

The repository holds two near-identical detectors:

- `DetectorTaponesMulticolor.py`, the list variant. Its ranges form a list, and the record of
  range `i` is named by `color_names[i]`. A contour needs area strictly above `min_area`.
- `src/DetectorTaponesMulticolor.py`, the dict variant. Its ranges form a dict, and each record
  is named by the dict key. `min_area == 0` turns the filter off. This variant also has
  `get_estimaciones`.

Both variants run one per-range loop (`Detector.DetectImage`). A `Config` carries the two
differences: how a range is named and which area policy applies. `src/mainExecutable.py` wraps
a dict detector in a run-once orchestrator (`Runner.Ejecutar`).

Modules, one per concern:

- `Hsv`: pixels, inclusive colour boxes and their well-formedness.
- `Masks`: boolean masks (`seq<seq<bool>>`) and `inRange`. Also 3×3 erosion and dilation with
  OpenCV's default border, where off-image pixels never matter. Also union, difference and the
  0/255 byte images with saturating `subtract` and `bitwise_or`.
- `Markers`: sure foreground and background, the unknown band, and the watershed marker image.
- `Records`: contour measurements, the detection record, truncating centroid, aspect ratio and
  the two area policies.
- `Detector`: the loop over ranges and contours, the accumulated segmentation mask, and the
  markers per range.
- `Directory`: the case-sensitive extension filter, the loop over images and the output names.
- `Summary`: grouping by colour into count, total area and mean area, with rows in ascending
  key order as pandas' `groupby` sorts them.
- `Runner`: the two-state `ejecutar` machine.
- `Palette`: the configured ranges, names and thresholds.

Inputs the model takes as parameters instead of computing them:

- The directory listing is a `seq<string>`.
- `cv2.imread` is a function `load: string -> Option<Frame>`. `None` stands for an unreadable
  file.
- A `Frame` holds the HSV image and two opaque OpenCV results. `contoursOf(i, cleaned)` gives
  the contour measurements that Otsu thresholding and `findContours` produce for range `i`.
  `componentsOf` stands for `connectedComponents`.
- Contour measurements are exact reals (area, m00, m10, m01) plus an integer bounding rectangle.

Behaviours of the source worth knowing:

- `get_estimaciones` raises on an empty detection list. A DataFrame built from no rows has no
  'Color' column. The model returns `Err(MissingColorColumn)`. So in `ejecutar`, a first run
  that finds nothing raises before the flag is set. The next call processes the directory
  again. `Runner.ProcessedAtMostOnce` shows this still never duplicates records.
- The watershed never appends records (`Detector.ScanIgnoresComponents`). But it paints
  boundary pixels into the working image, and later ranges threshold that image. Drawn contours,
  centroids and labels do the same. A range's contours can therefore depend on what earlier
  ranges drew. This is why `contoursOf` takes the range position as an argument.
- `src/mainExecutable.py` imports `detectorTaponesMulticolor` with a lower-case `d`, while the
  file is named `DetectorTaponesMulticolor.py`. The model assumes the import resolves to the
  dict variant.

## Model

| member | source | states |
|---|---|---|
| Masks.InRange | DetectorTaponesMulticolor.py:64 | a mask pixel is set exactly when H, S and V each lie within the lower and upper bounds, both inclusive; the mask has the image's shape |
| Masks.ErodeIsWindowMinimum | DetectorTaponesMulticolor.py:67 | one erosion with the default 3×3 kernel keeps a pixel exactly when every in-image pixel of its 3×3 window is set |
| Masks.DilateIsWindowMaximum | DetectorTaponesMulticolor.py:68 | one dilation sets a pixel exactly when some in-image pixel of its 3×3 window is set |
| Masks.Erode | DetectorTaponesMulticolor.py:67 | erosion only removes pixels: the result is contained in the input |
| Masks.Dilate | DetectorTaponesMulticolor.py:68 | dilation only adds pixels: the input is contained in the result |
| Masks.ErodeN | src/DetectorTaponesMulticolor.py:115 | any number of erosion passes stays inside the input mask |
| Masks.DilateN | src/DetectorTaponesMulticolor.py:116 | any number of dilation passes contains the input mask |
| Masks.Clean | DetectorTaponesMulticolor.py:66-68 | the cleaned mask of one range (erode once, dilate twice) has the image's shape; `Masks.CleanIsBracketed` bounds it from both sides |
| Masks.CleanIsBracketed | DetectorTaponesMulticolor.py:66-68 | the cleaned mask (erode once, dilate twice) contains the eroded range mask and lies inside the twice-dilated range mask |
| Masks.MinusPartitions | src/DetectorTaponesMulticolor.py:115-117 | when the foreground lies inside the background, the background splits into the foreground and the difference, with no overlap |
| Masks.SubtractIsMinus | src/DetectorTaponesMulticolor.py:117 | on 0/255 images, uint8 saturating `cv2.subtract` gives exactly the set difference |
| Masks.BitwiseOrIsUnion | src/DetectorTaponesMulticolor.py:129 | on 0/255 images, `cv2.bitwise_or` gives exactly the set union |
| Masks.Saturate | src/DetectorTaponesMulticolor.py:117 | uint8 results are clamped: negative values become 0, values above 255 become 255, and values in 0..255 are unchanged |
| Masks.Subtract | src/DetectorTaponesMulticolor.py:117 | `cv2.subtract` keeps the image shape and yields bytes; on 0/255 masks `Masks.SubtractIsMinus` shows it is set difference |
| Masks.BitwiseOr | src/DetectorTaponesMulticolor.py:129 | `cv2.bitwise_or` keeps the image shape; on 0/255 masks `Masks.BitwiseOrIsUnion` shows it is set union |
| Masks.OrAllAt | DetectorTaponesMulticolor.py:130 | a pixel of the or-accumulated mask is set exactly when the base or one accumulated mask has it set |
| Masks.Blank | DetectorTaponesMulticolor.py:60 | the initial final mask has the image's shape and no pixel set |
| Markers.SureForeground | src/DetectorTaponesMulticolor.py:115 | `sure_fg`, three erosions of the cleaned mask, lies inside the cleaned mask |
| Markers.SureBackground | src/DetectorTaponesMulticolor.py:116 | `sure_bg`, three dilations of the cleaned mask, contains the cleaned mask |
| Markers.SureChain | src/DetectorTaponesMulticolor.py:115-116 | three erosions ⊆ cleaned mask ⊆ three dilations |
| Markers.Unknown | src/DetectorTaponesMulticolor.py:117 | the unknown image has the mask's shape; `Markers.UnknownIsBand` gives its content |
| Markers.UnknownIsBand | src/DetectorTaponesMulticolor.py:117 | the unknown image is 255 exactly on sure background minus sure foreground and 0 elsewhere |
| Markers.Markers | src/DetectorTaponesMulticolor.py:121-122 | the marker image has the shape of the unknown image; `Markers.WatershedMarkerRule` gives its values |
| Markers.WatershedMarkers | src/DetectorTaponesMulticolor.py:115-122 | the markers built for one cleaned mask have its shape; `Markers.WatershedMarkerRule` gives their values |
| Markers.WatershedMarkerRule | src/DetectorTaponesMulticolor.py:119-122 | marker 0 falls exactly on the unknown band; elsewhere the marker is the component label plus one, so it is at least 2 on sure foreground and exactly 1 outside sure background |
| Records.Trunc | DetectorTaponesMulticolor.py:87-88 | `int()` of a ratio truncates toward zero: the result is within one of the ratio, on its zero side |
| Records.Aspect | DetectorTaponesMulticolor.py:98 | the aspect times the height equals the width when the height is non-zero; the aspect is exactly 0 when the height is 0 |
| Records.Admits | DetectorTaponesMulticolor.py:81 | under either policy an area above the threshold is kept, and with a non-zero threshold only such areas are kept |
| Records.AdmitsMonotone | src/DetectorTaponesMulticolor.py:80 | a kept contour stays kept if its area grows or the threshold drops (to any non-negative value) |
| Records.PoliciesDifferOnlyAtZero | src/DetectorTaponesMulticolor.py:80 | the strict `area > min_area` test of the list variant and the dict variant's "0 disables" test agree for every non-zero threshold; at 0 the strict one still drops areas ≤ 0 while the other keeps everything |
| Records.MakeRecord | DetectorTaponesMulticolor.py:80-113 | a contour yields a record exactly when it passes the area policy, has non-zero m00 and its range has a name; it raises IndexError exactly when it qualifies and the name is missing; the record carries the contour's area, rectangle, truncated centroid and aspect |
| Records.CentroidTruncates | DetectorTaponesMulticolor.py:84-88 | each stored centroid coordinate lies within one pixel of m10/m00 (resp. m01/m00) and, unless 0, has the same sign |
| Detector.ListConfig | DetectorTaponesMulticolor.py:62-105 | range `i` of the list variant is named `color_names[i]` when the name list reaches `i` and has no name otherwise; the policy is strict |
| Detector.DictConfig | src/DetectorTaponesMulticolor.py:61-104 | each range of the dict variant is named by its key, in insertion order; the policy is "0 disables" |
| Detector.ConstructorDefaults | DetectorTaponesMulticolor.py:13 | built without `min_area`, the list detector's threshold is 500 and the dict detector's is 0, which keeps every contour (src/DetectorTaponesMulticolor.py:13) |
| Detector.ListConfigNamed | DetectorTaponesMulticolor.py:100-105 | every range gets a name exactly when the name list is at least as long as the range list |
| Detector.RangeRecords | DetectorTaponesMulticolor.py:80-113 | a range yields at most one record per contour, each named after the range, admitted by the area policy and with a coherent aspect; it fails exactly when the range is unnamed and some contour qualifies; `Detector.RangeRecordsDescribe` and `Detector.RangeRecordsSingle` give the records' contents |
| Detector.RangeRecordsSingle | DetectorTaponesMulticolor.py:80-113 | the loop over one contour gives exactly that contour's record, skip or IndexError; with `Detector.RangeRecordsSplit` this fixes the loop over any contour list |
| Detector.RangeRecordsDescribe | DetectorTaponesMulticolor.py:84-113 | every stored record carries the range's name and the area, bounding rectangle, truncated centroid and aspect of one of the range's own contours |
| Detector.RangeRecordsCount | src/DetectorTaponesMulticolor.py:79-112 | a named range yields exactly one record per contour that passes the area policy with non-zero m00 |
| Detector.RangeRecordsSplit | DetectorTaponesMulticolor.py:80 | records follow contour order: splitting the contour list splits the records |
| Detector.Scan | DetectorTaponesMulticolor.py:62-113 | every record after the first n ranges is admitted by the policy, coherent and named after one of those ranges; an exception names a range position whose name is missing; `Detector.ScanStep` and `Detector.ScanCount` give its content |
| Detector.ScanStep | DetectorTaponesMulticolor.py:62-104 | range n − 1 adds exactly its own contour loop's records after those of the ranges before it, and the pass raises exactly when an earlier range or this one raises |
| Detector.ScanCount | DetectorTaponesMulticolor.py:62-104 | with every range named, the first n ranges yield exactly one record per contour that passes the area policy with non-zero m00, summed over those ranges: nothing is dropped |
| Detector.ScanGrows | DetectorTaponesMulticolor.py:62-104 | the detection list only grows in range order: the records of the first m ranges are a prefix of those of the first n |
| Detector.ScanIgnoresComponents | DetectorTaponesMulticolor.py:115-127 | the watershed step appends no record: an image raises exactly when its contour loops raise, and otherwise its records are exactly theirs; with each range's contours fixed, the component labelling does not change them |
| Detector.AccumulatedIsUnion | DetectorTaponesMulticolor.py:129-130 | after n ranges the final mask is set exactly where one of their cleaned masks is set |
| Detector.DetectImage | DetectorTaponesMulticolor.py:44-143 | for a readable image, the records obey the area policy and come from named ranges; the segmented mask and each range's markers have the image's shape, and `Detector.DetectImageMarkers` gives the markers' values; it raises only for a range without a name, and never when every range is named; `Detector.DetectImageCount` counts its records |
| Detector.Accumulated | DetectorTaponesMulticolor.py:129-130 | `final_mask` after n ranges has the image's shape; `Detector.AccumulatedIsUnion` gives its content |
| Detector.DetectImageCount | DetectorTaponesMulticolor.py:44-105 | with every range named, an image yields exactly one record per qualifying contour over all its ranges |
| Detector.DetectImageMarkers | src/DetectorTaponesMulticolor.py:115-122 | range i's marker image is the watershed marker image of its own cleaned mask, so `Markers.WatershedMarkerRule` gives its values |
| Detector.SegmentedIsUnion | DetectorTaponesMulticolor.py:141-142 | the segmented image written out is the union of all cleaned range masks |
| Directory.SelectImages | src/DetectorTaponesMulticolor.py:150 | a name is selected exactly when it is listed and is an image name; the selection is no longer than the listing and repeats no name the listing does not repeat; `Directory.SelectImagesSplit` fixes its order |
| Directory.SelectImagesSplit | src/DetectorTaponesMulticolor.py:150 | selection keeps listing order: filtering a concatenation gives the filtered parts in the same order |
| Directory.SelectImagesSingle | src/DetectorTaponesMulticolor.py:150 | a single listed name is kept exactly when it is an image name |
| Directory.IsImageName | src/DetectorTaponesMulticolor.py:150 | a name is accepted exactly when it ends in one of `.jpg`, `.png`, `.jpeg`; such a name has at least four characters and its last four are `.jpg`, `.png` or `jpeg` |
| Directory.ExtensionIsCaseSensitive | src/DetectorTaponesMulticolor.py:150 | lower-case extensions are accepted; `.JPG`, `.Png` and `.jpg.txt` are not |
| Directory.OutputNamesInjective | src/DetectorTaponesMulticolor.py:132-134 | a `contornos_` name never equals a `segmentada_` name, and each prefix is injective in the input name |
| Directory.OutputKeepsExtension | src/DetectorTaponesMulticolor.py:132-134 | prefixing an image name keeps its recognised extension |
| Directory.ProcessImage | src/DetectorTaponesMulticolor.py:43-142 | an unreadable image adds no record and writes nothing; a readable one appends its records and writes `contornos_<name>` and then `segmentada_<name>` with the accumulated mask |
| Directory.ProcessNames | src/DetectorTaponesMulticolor.py:152-154 | every appended record obeys the policy and comes from a named range; every output file comes from a readable listed name; with every range named, the loop never raises; `Directory.ProcessNamesSingle` and `Directory.ProcessNamesSplit` tie its records to each image's |
| Directory.ProcessNamesSplit | src/DetectorTaponesMulticolor.py:152-154 | images are handled in order and only append: the run over a + b raises the first exception of the run over a, then of the run over b, and otherwise appends b's records and files after a's |
| Directory.ProcessNamesCons | src/DetectorTaponesMulticolor.py:152-154 | a successful run over a non-empty listing appends the first image's records and files, then those of the rest |
| Directory.ProcessNamesSingle | src/DetectorTaponesMulticolor.py:152-154 | the run over a one-name listing is exactly that image's `detectar_tapon`: the same records, files and exception |
| Directory.OutputNamesDistinct | src/DetectorTaponesMulticolor.py:132-154 | for a listing without repeated names, no output file of a run overwrites another |
| Directory.ProcesarDirectorioSplit | src/DetectorTaponesMulticolor.py:144-154 | the directory pass over a + b is the pass over a followed by the pass over b, first exception first |
| Directory.ProcesarDirectorioSingle | src/DetectorTaponesMulticolor.py:150-154 | a one-entry listing runs `detectar_tapon` on the entry exactly when it has an image extension, and otherwise adds nothing and writes nothing |
| Directory.ProcesarDirectorio | src/DetectorTaponesMulticolor.py:144-154 | every written file is a prefix plus a readable image name from the listing; with every range named, it never raises; `Directory.ProcesarDirectorioSplit` and `Directory.ProcesarDirectorioSingle` give its records and files entry by entry |
| Summary.Below | src/DetectorTaponesMulticolor.py:188 | the key order that `groupby` sorts by: no string is below itself, and a proper prefix is below any longer string it begins |
| Summary.BelowTransitive | src/DetectorTaponesMulticolor.py:188 | the key order is transitive |
| Summary.BelowTotal | src/DetectorTaponesMulticolor.py:188 | any two different keys are ordered one way or the other |
| Summary.Insert | src/DetectorTaponesMulticolor.py:188 | inserting a colour into the ascending distinct key list keeps it ascending and adds exactly that colour |
| Summary.Group | src/DetectorTaponesMulticolor.py:188-192 | the grouping pass has a key for exactly the colours that occur |
| Summary.GroupIsPerColour | src/DetectorTaponesMulticolor.py:188-192 | the one-pass grouping gives each colour the count and total area of the records with that colour, computed colour by colour |
| Summary.SortedColors | src/DetectorTaponesMulticolor.py:188 | the group keys are the distinct colours, strictly ascending in Python's string order |
| Summary.CountsCoverRecords | src/DetectorTaponesMulticolor.py:189 | summed over distinct colours that cover all records, the per-colour counts add up to the number of records |
| Summary.Estimaciones | src/DetectorTaponesMulticolor.py:156-208 | raises exactly on an empty list; otherwise gives one row per occurring colour, ascending, where the count is the number of records of that colour, the total is their area sum, the mean is total / count, and the counts sum to the list length |
| Runner.Fresh | src/DetectorTaponesMulticolor.py:13-19 | a new orchestrator starts with no records and without the flag |
| Runner.Next | src/mainExecutable.py:38-47 | the state after one call: with the flag set or a raising pass nothing changes; otherwise the run's records are appended and the flag is set exactly when the list becomes non-empty, which is exactly when `get_estimaciones` succeeds; the configuration never changes |
| Runner.Call | src/mainExecutable.py:36-55 | given what the directory pass yields: with the flag set nothing changes and the current summary is returned; otherwise a raising pass leaves the state as it was and propagates its exception, and a successful pass appends its records, returns their summary and sets the flag exactly when that summary succeeds, which is exactly when the list is non-empty |
| Runner.Ejecutar | src/mainExecutable.py:29-55 | with the flag set, nothing changes and the current summary is returned; without it, the directory is processed once and appended, and the flag is set exactly when the first summary succeeds; every call returns the summary of the current list |
| Runner.ConsecutiveCallsAgree | src/mainExecutable.py:50-55 | once the flag is set, the next call returns the same state and the same summary |
| Runner.ProcessedAtMostOnce | src/mainExecutable.py:36-47 | from a fresh object whose directory pass succeeds, after any number of calls the list holds exactly one run's records (none after zero calls); the flag is set exactly when the list is non-empty |
| Runner.ConfigNeverChanges | src/mainExecutable.py:18-27 | no call replaces the detector, so every later directory pass runs with the starting configuration |
| Runner.StaysAfterFirst | src/mainExecutable.py:38-52 | after a successful first call, any number of further calls leave the state unchanged |
| Palette.ListDetector | DetectorTaponesMulticolor.py:159-226 | the list script's detector has 9 ranges, all named, a strict policy and threshold 500 |
| Palette.DictDetector | src/DetectorTaponesMulticolor.py:211-228 | the dict script's detector has 9 ranges, all named, the "0 disables" policy and threshold 500 |
| Palette.MainDetector | src/mainExecutable.py:4-66 | the orchestrator's detector is the same as the dict script's |
| Palette.RangesWellFormed | src/mainExecutable.py:4-14 | every configured range has lower ≤ upper on each channel, hue ≤ 180, and saturation and value ≤ 255 |
| Palette.RedNaming | DetectorTaponesMulticolor.py:220 | the list variant names both red ranges "Rojo"; the dict variant names them "Rojo_Rango1" and "Rojo_Rango2" |
| Palette.VariantsShareRanges | src/DetectorTaponesMulticolor.py:211-221 | the dict has 9 distinct keys, and both variants test the same 9 boxes in the same order |
| Palette.RangesOverlap | DetectorTaponesMulticolor.py:160-166 | the boxes share edges, so one pixel can be in two ranges (Azul and Rosa at hue 140, Rosa and upper red at hue 170, Azul and Negro when dark) |

## Left out

- File I/O is not modelled: `cv2.imread`, `cv2.imwrite`, `os.listdir`, `os.makedirs`,
  `os.path.join`/`basename` and every `print`. The listing and the loader are parameters. An
  output is a name plus what the file holds. The `basename` of the joined path is the listed
  name itself.
- Colour-space numerics are not modelled: `imutils.resize`, the BGR→HSV and BGR→gray
  conversions, and CLAHE (`aplicar_clahe`, which neither detector calls). The HSV image is an
  input.
- Opaque OpenCV computations are not modelled: Otsu threshold selection, `findContours`,
  `contourArea`, `moments`, `boundingRect`, `connectedComponents` and the watershed flooding.
  Their results are inputs. `contoursOf` carries any influence of drawings on later ranges.
- Drawing is not modelled (`drawContours`, `circle`, `putText`, painting watershed boundaries).
  The annotated output image is a tag without pixel content. The `imagen` field of a record is
  dropped.
- `mostrar_resultados` and `visualizador_tapones.py` are display-only. They read keys that no
  detector stores ('Posición', 'contorno').
- `mostrar_mascaras` is stored but never read by either detector.
- The pandas printing in `get_estimaciones` is not modelled. Only the grouped table is kept.
- The module-level script code is not modelled, including the processing that the `src`
  detector file runs on import. The `__main__` block of `mainExecutable` builds the
  orchestrator but never calls `ejecutar`.
- Floating point is replaced by exact reals: areas, moment ratios, aspect ratios and means.
- Masks.ErodeN: `iterations=k` with the default kernel is modelled as k single passes. That
  agrees with OpenCV's enlarged-kernel shortcut under the default border, but the agreement is
  not proved.
- Directory.ProcessNames: an IndexError in the list variant drops the whole run. The source
  keeps the records appended before the exception, but the exception ends the script.
- Detector.ScanIgnoresComponents: the component labelling still reaches later records
  indirectly. Its watershed boundaries are painted into the working image, which the next
  range thresholds. The model takes each range's contours as given, so this path is not modelled.
- Runner.Call: a raising directory pass returns the state unchanged, although the source keeps
  the records appended before the exception.
- Runner.Ejecutar: if processing raises, the state is returned unchanged, although the source
  keeps the records appended before the exception. With the configured dict detector this
  cannot happen, because every range is named.
- Records.Trunc: `int(m10 / m00)` truncates an exact quotient, not a rounded float quotient.

=== FILE: detector.dfy ===
/** `detectar_tapon` for one readable image: per colour range, clean the range mask, turn the
    contours found in it into detection records, build the watershed markers and accumulate the
    segmented mask. Both detector variants run this same loop; they differ only in how a range
    is named and in the minimum-area policy, which `Config` carries. */
module Detector {
  import opened Outcomes
  import opened Hsv
  import opened Masks
  import opened Markers
  import opened Records

  /** One colour range in iteration order, with the colour name its records get (absent when
      a parallel name list is shorter than the range list). */
  datatype Slot = Slot(name: Option<string>, range: ColorRange)

  datatype Config = Config(slots: seq<Slot>, minArea: real, policy: AreaPolicy)

  /** The list-configured detector: `color_ranges` is a list, the record for range `i` is named
      `color_names[i]`, and a contour must have area strictly above `min_area`, which defaults
      to 500. */
  function ListConfig(ranges: seq<ColorRange>, names: seq<string>, minArea: real := 500.0): (cfg: Config)
    ensures |cfg.slots| == |ranges| && cfg.minArea == minArea && cfg.policy == StrictlyAbove
    ensures forall i | 0 <= i < |ranges| :: cfg.slots[i].range == ranges[i]
    ensures forall i | 0 <= i < |ranges| :: cfg.slots[i].name.Some? <==> i < |names|
    ensures forall i | 0 <= i < |ranges| && i < |names| :: cfg.slots[i].name.value == names[i]
  {
    Config(seq(|ranges|, i requires 0 <= i < |ranges| =>
             Slot(if i < |names| then Some(names[i]) else None, ranges[i])),
           minArea, StrictlyAbove)
  }

  /** The dict-configured detector: `color_ranges` maps a colour name to its bounds, iterated in
      insertion order, the record is named by the key, and `min_area == 0`, the default,
      disables the filter. */
  function DictConfig(entries: seq<(string, ColorRange)>, minArea: real := 0.0): (cfg: Config)
    ensures |cfg.slots| == |entries| && cfg.minArea == minArea && cfg.policy == ZeroDisables
    ensures forall i | 0 <= i < |entries| :: cfg.slots[i] == Slot(Some(entries[i].0), entries[i].1)
  {
    Config(seq(|entries|, i requires 0 <= i < |entries| => Slot(Some(entries[i].0), entries[i].1)),
           minArea, ZeroDisables)
  }

  /** Built without `min_area`, the list detector keeps only areas above 500 and the dict
      detector keeps every contour. */
  lemma ConstructorDefaults(ranges: seq<ColorRange>, names: seq<string>, entries: seq<(string, ColorRange)>, area: real)
    ensures ListConfig(ranges, names).minArea == 500.0
    ensures DictConfig(entries).minArea == 0.0
    ensures Admits(DictConfig(entries).policy, DictConfig(entries).minArea, area)
  {
  }

  predicate AllNamed(cfg: Config) {
    forall i | 0 <= i < |cfg.slots| :: cfg.slots[i].name.Some?
  }

  /** A list configuration names every range exactly when the name list is at least as long. */
  lemma ListConfigNamed(ranges: seq<ColorRange>, names: seq<string>, minArea: real)
    ensures AllNamed(ListConfig(ranges, names, minArea)) <==> |ranges| <= |names|
  {
    var cfg := ListConfig(ranges, names, minArea);
    if |ranges| > |names| {
      assert cfg.slots[|names|].name.None?;
    }
  }

  /** One readable image. The parts OpenCV computes out of sight are given as functions:
      `contoursOf(i, cleaned)` is what Otsu thresholding and `cv2.findContours` return for the
      range at position `i` whose cleaned mask is `cleaned` (the position matters because the
      thresholded image already carries the drawings of the earlier ranges), and `componentsOf`
      is `cv2.connectedComponents`. */
  datatype Frame = Frame(
    hsv: Grid<Pixel>,
    contoursOf: (nat, Mask) -> seq<Contour>,
    componentsOf: Mask -> Grid<int>)

  function Cleaned(cfg: Config, f: Frame, i: nat): (m: Mask)
    requires i < |cfg.slots|
    ensures SameShape(m, f.hsv)
  {
    Clean(f.hsv, cfg.slots[i].range)
  }

  /** Run `a`, then `b`, stopping at the first exception. */
  function Then(a: Result<seq<Detection>>, b: Result<seq<Detection>>): Result<seq<Detection>> {
    if a.Err? then a else if b.Err? then b else Ok(a.value + b.value)
  }

  function Appended(r: Result<Option<Detection>>): Result<seq<Detection>> {
    match r
    case Err(e) => Err(e)
    case Ok(None) => Ok([])
    case Ok(Some(d)) => Ok([d])
  }

  /** The inner loop over the contours of the range at position `index`. */
  function RangeRecords(cfg: Config, index: nat, name: Option<string>, cs: seq<Contour>)
    : (r: Result<seq<Detection>>)
    ensures r.Ok? ==> |r.value| <= |cs|
    ensures r.Ok? ==> forall d | d in r.value ::
      Some(d.color) == name && Admits(cfg.policy, cfg.minArea, d.area) && Coherent(d)
    ensures r.Err? <==> name.None? && exists c | c in cs :: Admits(cfg.policy, cfg.minArea, c.area) && c.m00 != 0.0
    ensures r.Err? ==> r.failure == IndexError(index)
    decreases |cs|
  {
    if cs == [] then Ok([])
    else Then(Appended(MakeRecord(cfg.policy, cfg.minArea, index, name, cs[0])),
              RangeRecords(cfg, index, name, cs[1..]))
  }

  /** How many of the contours `cs` pass the area filter and have a non-zero m00. */
  function Kept(cfg: Config, cs: seq<Contour>): nat
    decreases |cs|
  {
    if cs == [] then 0
    else (if Admits(cfg.policy, cfg.minArea, cs[0].area) && cs[0].m00 != 0.0 then 1 else 0) + Kept(cfg, cs[1..])
  }

  /** A named range yields exactly one record per contour that passes the area filter and has
      a non-zero m00. */
  lemma {:induction false} RangeRecordsCount(cfg: Config, index: nat, name: Option<string>, cs: seq<Contour>)
    requires name.Some?
    ensures RangeRecords(cfg, index, name, cs).Ok?
    ensures |RangeRecords(cfg, index, name, cs).value| == Kept(cfg, cs)
    decreases |cs|
  {
    if cs != [] {
      RangeRecordsCount(cfg, index, name, cs[1..]);
    }
  }

  /** Records come out in contour order: splitting the contour list splits the records. */
  lemma {:induction false} RangeRecordsSplit(cfg: Config, index: nat, name: Option<string>, a: seq<Contour>, b: seq<Contour>)
    ensures RangeRecords(cfg, index, name, a + b)
         == Then(RangeRecords(cfg, index, name, a), RangeRecords(cfg, index, name, b))
    decreases |a|
  {
    if a == [] {
      assert a + b == b;
      var rb := RangeRecords(cfg, index, name, b);
      if rb.Ok? {
        assert [] + rb.value == rb.value;
      }
    } else {
      assert (a + b)[0] == a[0];
      assert (a + b)[1..] == a[1..] + b;
      RangeRecordsSplit(cfg, index, name, a[1..], b);
      ThenAssociative(Appended(MakeRecord(cfg.policy, cfg.minArea, index, name, a[0])),
                      RangeRecords(cfg, index, name, a[1..]), RangeRecords(cfg, index, name, b));
    }
  }

  /** One contour on its own: the loop's result is exactly the record, the skip or the
      IndexError that `MakeRecord` gives for it. With `RangeRecordsSplit` this fixes the loop's
      result for any contour list, record contents included. */
  lemma RangeRecordsSingle(cfg: Config, index: nat, name: Option<string>, c: Contour)
    ensures RangeRecords(cfg, index, name, [c]) == Appended(MakeRecord(cfg.policy, cfg.minArea, index, name, c))
  {
    assert [c][0] == c && [c][1..] == [];
    var a := Appended(MakeRecord(cfg.policy, cfg.minArea, index, name, c));
    if a.Ok? {
      assert a.value + [] == a.value;
    }
  }

  /** Every stored record describes one of the range's own contours: its area, rectangle,
      truncated centroid and aspect are that contour's, under the range's name. */
  lemma {:induction false} RangeRecordsDescribe(cfg: Config, index: nat, name: Option<string>, cs: seq<Contour>)
    ensures RangeRecords(cfg, index, name, cs).Ok? ==>
              forall d | d in RangeRecords(cfg, index, name, cs).value ::
                name.Some? && exists c | c in cs :: Describes(d, name.value, c)
    decreases |cs|
  {
    if cs != [] {
      RangeRecordsDescribe(cfg, index, name, cs[1..]);
      var r := RangeRecords(cfg, index, name, cs);
      if r.Ok? {
        var head := Appended(MakeRecord(cfg.policy, cfg.minArea, index, name, cs[0]));
        var tail := RangeRecords(cfg, index, name, cs[1..]);
        assert r.value == head.value + tail.value;
        forall d | d in r.value
          ensures name.Some? && exists c | c in cs :: Describes(d, name.value, c)
        {
          if d in head.value {
            assert Describes(d, name.value, cs[0]);
          } else {
            var c :| c in cs[1..] && Describes(d, name.value, c);
            assert c in cs;
          }
        }
      }
    }
  }

  lemma ThenAssociative(a: Result<seq<Detection>>, b: Result<seq<Detection>>, c: Result<seq<Detection>>)
    ensures Then(Then(a, b), c) == Then(a, Then(b, c))
  {
    if a.Ok? && b.Ok? && c.Ok? {
      assert (a.value + b.value) + c.value == a.value + (b.value + c.value);
    }
  }

  /** The outer loop over the first `n` ranges. */
  function Scan(cfg: Config, f: Frame, n: nat): (r: Result<seq<Detection>>)
    requires n <= |cfg.slots|
    ensures r.Ok? ==> forall d | d in r.value ::
      && Admits(cfg.policy, cfg.minArea, d.area) && Coherent(d)
      && exists i | 0 <= i < n :: cfg.slots[i].name == Some(d.color)
    ensures r.Err? ==> r.failure.IndexError? && r.failure.index < n && cfg.slots[r.failure.index].name.None?
    decreases n
  {
    if n == 0 then Ok([])
    else
      var i := n - 1;
      Then(Scan(cfg, f, i), RangeRecords(cfg, i, cfg.slots[i].name, f.contoursOf(i, Cleaned(cfg, f, i))))
  }

  /** The detection list only grows as ranges are processed: what the first `m` ranges produce
      is a prefix of what the first `n` produce. */
  lemma {:induction false} ScanGrows(cfg: Config, f: Frame, m: nat, n: nat)
    requires m <= n <= |cfg.slots|
    requires Scan(cfg, f, n).Ok?
    ensures Scan(cfg, f, m).Ok?
    ensures Scan(cfg, f, m).value <= Scan(cfg, f, n).value
    decreases n - m
  {
    if m < n {
      ScanGrows(cfg, f, m, n - 1);
    }
  }

  /** Step `n` of the outer loop appends exactly the records of range `n - 1`'s contour loop
      to those of the ranges before it. */
  lemma ScanStep(cfg: Config, f: Frame, n: nat)
    requires 0 < n <= |cfg.slots|
    ensures Scan(cfg, f, n).Ok? <==>
              Scan(cfg, f, n - 1).Ok? && RangeRecords(cfg, n - 1, cfg.slots[n - 1].name, f.contoursOf(n - 1, Cleaned(cfg, f, n - 1))).Ok?
    ensures Scan(cfg, f, n).Ok? ==>
              Scan(cfg, f, n).value
              == Scan(cfg, f, n - 1).value + RangeRecords(cfg, n - 1, cfg.slots[n - 1].name, f.contoursOf(n - 1, Cleaned(cfg, f, n - 1))).value
  {
  }

  /** How many contours of the first `n` ranges pass the area filter and have a non-zero m00. */
  function KeptUpTo(cfg: Config, f: Frame, n: nat): nat
    requires n <= |cfg.slots|
    decreases n
  {
    if n == 0 then 0 else KeptUpTo(cfg, f, n - 1) + Kept(cfg, f.contoursOf(n - 1, Cleaned(cfg, f, n - 1)))
  }

  /** When every range is named, the first `n` ranges yield one record per qualifying contour:
      nothing is dropped and nothing is added. */
  lemma {:induction false} ScanCount(cfg: Config, f: Frame, n: nat)
    requires n <= |cfg.slots| && AllNamed(cfg)
    ensures Scan(cfg, f, n).Ok?
    ensures |Scan(cfg, f, n).value| == KeptUpTo(cfg, f, n)
    decreases n
  {
    if n > 0 {
      ScanCount(cfg, f, n - 1);
      RangeRecordsCount(cfg, n - 1, cfg.slots[n - 1].name, f.contoursOf(n - 1, Cleaned(cfg, f, n - 1)));
    }
  }

  /** Helper for `ScanIgnoresComponents`: the loop never reads `componentsOf`, so with the
      contours each range sees held fixed, the labelling cannot change the detection list. */
  lemma {:induction false} ScanIndependentOfComponents(cfg: Config, hsv: Grid<Pixel>, contoursOf: (nat, Mask) -> seq<Contour>,
                                                       k1: Mask -> Grid<int>, k2: Mask -> Grid<int>, n: nat)
    requires n <= |cfg.slots|
    ensures Scan(cfg, Frame(hsv, contoursOf, k1), n) == Scan(cfg, Frame(hsv, contoursOf, k2), n)
    decreases n
  {
    if n > 0 {
      ScanIndependentOfComponents(cfg, hsv, contoursOf, k1, k2, n - 1);
    }
  }

  /** The cleaned masks of the first `n` ranges, in iteration order. */
  function CleanedMasks(cfg: Config, f: Frame, n: nat): (ms: seq<Mask>)
    requires n <= |cfg.slots|
    ensures |ms| == n && AllShaped(ms, Blank(f.hsv))
  {
    seq(n, i requires 0 <= i < n => Cleaned(cfg, f, i))
  }

  /** `final_mask` after the first `n` ranges: all-zero, then or-ed with each cleaned mask. */
  function Accumulated(cfg: Config, f: Frame, n: nat): (m: Mask)
    requires n <= |cfg.slots|
    ensures SameShape(m, f.hsv)
  {
    OrAll(Blank(f.hsv), CleanedMasks(cfg, f, n))
  }

  /** The accumulated mask is the pointwise or of the cleaned masks of the ranges seen so far. */
  lemma AccumulatedIsUnion(cfg: Config, f: Frame, n: nat)
    requires n <= |cfg.slots|
    ensures forall r, c | InGrid(f.hsv, r, c) ::
      Accumulated(cfg, f, n)[r][c] <==> exists i | 0 <= i < n :: Cleaned(cfg, f, i)[r][c]
  {
    var ms := CleanedMasks(cfg, f, n);
    forall r, c | InGrid(f.hsv, r, c)
      ensures Accumulated(cfg, f, n)[r][c] <==> exists i | 0 <= i < n :: Cleaned(cfg, f, i)[r][c]
    {
      OrAllAt(Blank(f.hsv), ms, r, c);
      if exists i | 0 <= i < n :: Cleaned(cfg, f, i)[r][c] {
        var i :| 0 <= i < n && Cleaned(cfg, f, i)[r][c];
        assert ms[i][r][c];
      }
    }
  }

  /** What one call of `detectar_tapon` produces for a readable image: the records to append,
      the segmented image written as `segmentada_<name>`, and the marker image each range hands
      to the watershed. */
  datatype ImageResult = ImageResult(records: seq<Detection>, segmented: Mask, markers: seq<Grid<int>>)

  function DetectImage(cfg: Config, f: Frame): (r: Result<ImageResult>)
    ensures r.Ok? ==> SameShape(r.value.segmented, f.hsv)
    ensures r.Ok? ==> |r.value.markers| == |cfg.slots|
    ensures r.Ok? ==> forall i | 0 <= i < |cfg.slots| :: SameShape(r.value.markers[i], f.hsv)
    ensures r.Ok? ==> forall d | d in r.value.records ::
      && Admits(cfg.policy, cfg.minArea, d.area) && Coherent(d)
      && exists i | 0 <= i < |cfg.slots| :: cfg.slots[i].name == Some(d.color)
    ensures r.Err? ==> r.failure.IndexError? && r.failure.index < |cfg.slots|
                       && cfg.slots[r.failure.index].name.None?
    ensures AllNamed(cfg) ==> r.Ok?
  {
    var n := |cfg.slots|;
    match Scan(cfg, f, n)
    case Err(e) => Err(e)
    case Ok(records) =>
      Ok(ImageResult(records, Accumulated(cfg, f, n),
                     seq(n, i requires 0 <= i < n => WatershedMarkers(Cleaned(cfg, f, i), f.componentsOf))))
  }

  /** Range i's marker image is the one built from its own cleaned mask, so
      `Markers.WatershedMarkerRule` describes every marker image of the result. */
  lemma DetectImageMarkers(cfg: Config, f: Frame)
    requires DetectImage(cfg, f).Ok?
    ensures forall i | 0 <= i < |cfg.slots| ::
      DetectImage(cfg, f).value.markers[i] == WatershedMarkers(Cleaned(cfg, f, i), f.componentsOf)
  {
  }

  /** The segmented image is set exactly where some range's cleaned mask is set. */
  lemma SegmentedIsUnion(cfg: Config, f: Frame)
    requires DetectImage(cfg, f).Ok?
    ensures forall r, c | InGrid(f.hsv, r, c) ::
      DetectImage(cfg, f).value.segmented[r][c] <==> exists i | 0 <= i < |cfg.slots| :: Cleaned(cfg, f, i)[r][c]
  {
    AccumulatedIsUnion(cfg, f, |cfg.slots|);
  }

  /** The watershed step appends no record: an image's records are exactly those of the
      contour loops, and whether it raises is decided there too. Given the contours each range
      sees, the records do not depend on the component labelling either. */
  lemma ScanIgnoresComponents(cfg: Config, f: Frame, k: Mask -> Grid<int>)
    ensures DetectImage(cfg, f).Ok? <==> Scan(cfg, f, |cfg.slots|).Ok?
    ensures DetectImage(cfg, f).Ok? ==> DetectImage(cfg, f).value.records == Scan(cfg, f, |cfg.slots|).value
    ensures DetectImage(cfg, f).Ok? ==>
              && DetectImage(cfg, f.(componentsOf := k)).Ok?
              && DetectImage(cfg, f.(componentsOf := k)).value.records == DetectImage(cfg, f).value.records
  {
    ScanIndependentOfComponents(cfg, f.hsv, f.contoursOf, f.componentsOf, k, |cfg.slots|);
  }

  /** An image of a detector whose ranges are all named yields exactly one record per
      qualifying contour over all its ranges. */
  lemma DetectImageCount(cfg: Config, f: Frame)
    requires AllNamed(cfg)
    ensures DetectImage(cfg, f).Ok?
    ensures |DetectImage(cfg, f).value.records| == KeptUpTo(cfg, f, |cfg.slots|)
  {
    ScanCount(cfg, f, |cfg.slots|);
  }
}

=== FILE: directory.dfy ===
/** `procesar_directorio`: pick the image files of the input directory by name, run the
    detector on each readable one, and name the two images written for it. The directory
    listing is a given sequence of names and `cv2.imread` is a given `load` function that
    returns `None` for an unreadable file. */
module Directory {
  import opened Outcomes
  import opened Masks
  import opened Records
  import opened Detector

  predicate EndsWith(s: string, suffix: string) {
    |suffix| <= |s| && s[|s| - |suffix|..] == suffix
  }

  /** The extensions the filter accepts, in the order the source lists them. */
  const ImageExtensions: seq<string> := [".jpg", ".png", ".jpeg"]

  /** `f.endswith(('.jpg', '.png', '.jpeg'))`: case-sensitive. A name is an image name exactly
      when it ends in one of the listed extensions, so it has at least four characters and its
      last four are `.jpg`, `.png` or `jpeg`. */
  predicate IsImageName(name: string): (ok: bool)
    ensures ok <==> exists ext | ext in ImageExtensions :: EndsWith(name, ext)
    ensures ok ==> |name| >= 4 && name[|name| - 4..] in {".jpg", ".png", "jpeg"}
  {
    assert ImageExtensions[2] == ".jpeg";
    assert EndsWith(name, ".jpeg") ==> name[|name| - 4..] == name[|name| - 5..][1..];
    EndsWith(name, ".jpg") || EndsWith(name, ".png") || EndsWith(name, ".jpeg")
  }

  /** Only lower-case extensions are recognised. */
  lemma ExtensionIsCaseSensitive()
    ensures IsImageName("tapon.jpg") && IsImageName("tapon.png") && IsImageName("tapon.jpeg")
    ensures !IsImageName("tapon.JPG") && !IsImageName("tapon.Png") && !IsImageName("tapon.jpg.txt")
  {
    assert "tapon.jpg"[5..] == ".jpg";
    assert "tapon.png"[5..] == ".png";
    assert "tapon.jpeg"[5..] == ".jpeg";
    assert "tapon.JPG"[5..] != ".jpg";
  }

  ghost predicate NoDuplicates<T>(s: seq<T>) {
    forall i, j | 0 <= i < j < |s| :: s[i] != s[j]
  }

  /** The list comprehension over `os.listdir`: image names, in listing order. */
  function SelectImages(listing: seq<string>): (sel: seq<string>)
    ensures |sel| <= |listing|
    ensures forall n :: n in sel <==> n in listing && IsImageName(n)
    ensures NoDuplicates(listing) ==> NoDuplicates(sel)
    decreases |listing|
  {
    if listing == [] then []
    else if IsImageName(listing[0]) then [listing[0]] + SelectImages(listing[1..])
    else SelectImages(listing[1..])
  }

  /** Selection keeps listing order: filtering a concatenation filters each part in turn. */
  lemma {:induction false} SelectImagesSplit(a: seq<string>, b: seq<string>)
    ensures SelectImages(a + b) == SelectImages(a) + SelectImages(b)
    decreases |a|
  {
    if a == [] {
      assert a + b == b;
    } else {
      assert (a + b)[0] == a[0];
      assert (a + b)[1..] == a[1..] + b;
      SelectImagesSplit(a[1..], b);
    }
  }

  /** A single listed name is kept exactly when it is an image name. */
  lemma SelectImagesSingle(name: string)
    ensures SelectImages([name]) == if IsImageName(name) then [name] else []
  {
    assert [name][1..] == [];
  }

  const AnnotatedPrefix: string := "contornos_"
  const SegmentedPrefix: string := "segmentada_"

  /** What each written file holds: the annotated working image (its drawings are not
      modelled) or the accumulated segmentation mask. */
  datatype OutputImage = Annotated | Segmented(mask: Mask)

  datatype Output = Output(name: string, image: OutputImage)

  /** What a run adds: records appended to `tapones_detectados` and images written. */
  datatype Batch = Batch(records: seq<Detection>, outputs: seq<Output>)

  /** Two file names written in one run coincide only when they come from the same input name
      and the same prefix. */
  lemma OutputNamesInjective(a: string, b: string)
    ensures AnnotatedPrefix + a != SegmentedPrefix + b
    ensures AnnotatedPrefix + a == AnnotatedPrefix + b ==> a == b
    ensures SegmentedPrefix + a == SegmentedPrefix + b ==> a == b
  {
    assert (AnnotatedPrefix + a)[0] == 'c';
    assert (SegmentedPrefix + b)[0] == 's';
    assert (AnnotatedPrefix + a)[|AnnotatedPrefix|..] == a;
    assert (AnnotatedPrefix + b)[|AnnotatedPrefix|..] == b;
    assert (SegmentedPrefix + a)[|SegmentedPrefix|..] == a;
    assert (SegmentedPrefix + b)[|SegmentedPrefix|..] == b;
  }

  /** Prefixing keeps the extension, so both output files are written in the input's format. */
  lemma OutputKeepsExtension(name: string, prefix: string)
    requires IsImageName(name)
    ensures IsImageName(prefix + name)
  {
    var full := prefix + name;
    forall suffix | EndsWith(name, suffix) ensures EndsWith(full, suffix) {
      assert full[|full| - |suffix|..] == name[|name| - |suffix|..];
    }
  }

  /** `detectar_tapon(join(input_folder, name))`. An unreadable file adds nothing and writes
      nothing; a readable one writes `contornos_<name>` and then `segmentada_<name>`. */
  function ProcessImage(cfg: Config, name: string, load: string -> Option<Frame>): (r: Result<Batch>)
    ensures load(name).None? ==> r == Ok(Batch([], []))
    ensures r.Ok? && load(name).Some? ==>
      && DetectImage(cfg, load(name).value).Ok?
      && r.value.records == DetectImage(cfg, load(name).value).value.records
      && r.value.outputs == [Output(AnnotatedPrefix + name, Annotated),
                             Output(SegmentedPrefix + name, Segmented(DetectImage(cfg, load(name).value).value.segmented))]
    ensures r.Err? ==> load(name).Some? && DetectImage(cfg, load(name).value).Err?
  {
    match load(name)
    case None => Ok(Batch([], []))
    case Some(f) =>
      match DetectImage(cfg, f)
      case Err(e) => Err(e)
      case Ok(res) =>
        Ok(Batch(res.records, [Output(AnnotatedPrefix + name, Annotated), Output(SegmentedPrefix + name, Segmented(res.segmented))]))
  }

  /** The loop over the selected names, stopping at the first exception. */
  function ProcessNames(cfg: Config, names: seq<string>, load: string -> Option<Frame>): (r: Result<Batch>)
    ensures r.Ok? ==> forall d | d in r.value.records ::
      && Admits(cfg.policy, cfg.minArea, d.area) && Coherent(d)
      && exists i | 0 <= i < |cfg.slots| :: cfg.slots[i].name == Some(d.color)
    ensures r.Ok? ==> forall o | o in r.value.outputs ::
      exists n | n in names && load(n).Some? :: o.name == AnnotatedPrefix + n || o.name == SegmentedPrefix + n
    ensures AllNamed(cfg) ==> r.Ok?
    decreases |names|
  {
    if names == [] then Ok(Batch([], []))
    else Join(ProcessImage(cfg, names[0], load), ProcessNames(cfg, names[1..], load))
  }

  /** Running one part of a listing and then the rest: the first exception wins, otherwise the
      records and the written files are appended in order. */
  function Join(first: Result<Batch>, rest: Result<Batch>): Result<Batch> {
    match first
    case Err(e) => Err(e)
    case Ok(a) =>
      match rest
      case Err(e) => Err(e)
      case Ok(b) => Ok(Batch(a.records + b.records, a.outputs + b.outputs))
  }

  lemma JoinAssociative(a: Result<Batch>, b: Result<Batch>, c: Result<Batch>)
    ensures Join(Join(a, b), c) == Join(a, Join(b, c))
  {
    if a.Ok? && b.Ok? && c.Ok? {
      assert (a.value.records + b.value.records) + c.value.records
          == a.value.records + (b.value.records + c.value.records);
      assert (a.value.outputs + b.value.outputs) + c.value.outputs
          == a.value.outputs + (b.value.outputs + c.value.outputs);
    }
  }

  /** Images are handled in listing order and each one only appends: the run over `a + b` is
      the run over `a` followed by the run over `b`. */
  lemma {:induction false} ProcessNamesSplit(cfg: Config, a: seq<string>, b: seq<string>, load: string -> Option<Frame>)
    ensures ProcessNames(cfg, a + b, load) == Join(ProcessNames(cfg, a, load), ProcessNames(cfg, b, load))
    decreases |a|
  {
    if a == [] {
      assert a + b == b;
      var rb := ProcessNames(cfg, b, load);
      if rb.Ok? {
        assert [] + rb.value.records == rb.value.records;
        assert [] + rb.value.outputs == rb.value.outputs;
      }
    } else {
      assert (a + b)[0] == a[0];
      assert (a + b)[1..] == a[1..] + b;
      ProcessNamesSplit(cfg, a[1..], b, load);
      JoinAssociative(ProcessImage(cfg, a[0], load), ProcessNames(cfg, a[1..], load), ProcessNames(cfg, b, load));
    }
  }

  function NamesOf(outs: seq<Output>): (ns: seq<string>)
    ensures |ns| == |outs| && forall k | 0 <= k < |outs| :: ns[k] == outs[k].name
  {
    seq(|outs|, k requires 0 <= k < |outs| => outs[k].name)
  }

  /** No file written in a run overwrites another one, given a listing without repeated names. */
  lemma {:induction false} OutputNamesDistinct(cfg: Config, names: seq<string>, load: string -> Option<Frame>)
    requires NoDuplicates(names)
    requires ProcessNames(cfg, names, load).Ok?
    ensures NoDuplicates(NamesOf(ProcessNames(cfg, names, load).value.outputs))
    decreases |names|
  {
    if names != [] {
      var h, rest := names[0], names[1..];
      ProcessNamesCons(cfg, names, load);
      var head := ProcessImage(cfg, h, load).value.outputs;
      var tail := ProcessNames(cfg, rest, load).value.outputs;
      HeadNotInRest(names);
      OutputNamesDistinct(cfg, rest, load);
      HeadOutputsFresh(cfg, h, rest, load);
      ConcatDistinct(NamesOf(head), NamesOf(tail));
      NamesOfConcat(head, tail);
    }
  }

  /** A successful run over a non-empty listing is the first image's run followed by the rest's. */
  lemma ProcessNamesCons(cfg: Config, names: seq<string>, load: string -> Option<Frame>)
    requires names != [] && ProcessNames(cfg, names, load).Ok?
    ensures ProcessImage(cfg, names[0], load).Ok? && ProcessNames(cfg, names[1..], load).Ok?
    ensures ProcessNames(cfg, names, load).value.records
         == ProcessImage(cfg, names[0], load).value.records + ProcessNames(cfg, names[1..], load).value.records
    ensures ProcessNames(cfg, names, load).value.outputs
         == ProcessImage(cfg, names[0], load).value.outputs + ProcessNames(cfg, names[1..], load).value.outputs
  {
  }

  /** A listing of one name is exactly that image's run: its records and its files. Together
      with `ProcessNamesSplit` this determines the run over any listing. */
  lemma ProcessNamesSingle(cfg: Config, name: string, load: string -> Option<Frame>)
    ensures ProcessNames(cfg, [name], load) == ProcessImage(cfg, name, load)
  {
    assert [name][1..] == [];
    var r := ProcessImage(cfg, name, load);
    if r.Ok? {
      assert r.value.records + [] == r.value.records;
      assert r.value.outputs + [] == r.value.outputs;
    }
  }

  lemma NamesOfConcat(a: seq<Output>, b: seq<Output>)
    ensures NamesOf(a + b) == NamesOf(a) + NamesOf(b)
  {
    assert forall k | 0 <= k < |a + b| :: NamesOf(a + b)[k] == (NamesOf(a) + NamesOf(b))[k];
  }

  lemma HeadNotInRest<T>(s: seq<T>)
    requires s != [] && NoDuplicates(s)
    ensures s[0] !in s[1..] && NoDuplicates(s[1..])
  {
    forall k | 0 <= k < |s| - 1 ensures s[1..][k] != s[0] {
      assert s[1..][k] == s[k + 1];
    }
  }

  /** The two files of one name are distinct from each other and from every file of a run over
      names that do not include it. */
  lemma HeadOutputsFresh(cfg: Config, h: string, rest: seq<string>, load: string -> Option<Frame>)
    requires h !in rest
    requires ProcessImage(cfg, h, load).Ok? && ProcessNames(cfg, rest, load).Ok?
    ensures var head := NamesOf(ProcessImage(cfg, h, load).value.outputs);
            var tail := NamesOf(ProcessNames(cfg, rest, load).value.outputs);
            NoDuplicates(head) && forall x | x in head :: x !in tail
  {
    ImageOutputNames(cfg, h, load);
    OutputNamesInjective(h, h);
    FreshAgainst(h, rest, ProcessNames(cfg, rest, load).value.outputs, load);
  }

  /** The names of the two files a readable image writes, in writing order. */
  lemma ImageOutputNames(cfg: Config, h: string, load: string -> Option<Frame>)
    requires ProcessImage(cfg, h, load).Ok?
    ensures NamesOf(ProcessImage(cfg, h, load).value.outputs)
         == if load(h).Some? then [AnnotatedPrefix + h, SegmentedPrefix + h] else []
  {
    var outs := ProcessImage(cfg, h, load).value.outputs;
    if load(h).Some? {
      assert |outs| == 2 && outs[0].name == AnnotatedPrefix + h && outs[1].name == SegmentedPrefix + h;
    }
  }

  /** Files named after other names never take the name of a file for `h`. */
  lemma FreshAgainst(h: string, rest: seq<string>, tail: seq<Output>, load: string -> Option<Frame>)
    requires h !in rest
    requires forall o | o in tail ::
      exists n | n in rest && load(n).Some? :: o.name == AnnotatedPrefix + n || o.name == SegmentedPrefix + n
    ensures forall o | o in tail :: o.name != AnnotatedPrefix + h && o.name != SegmentedPrefix + h
  {
    forall o | o in tail
      ensures o.name != AnnotatedPrefix + h && o.name != SegmentedPrefix + h
    {
      var n :| n in rest && load(n).Some? && (o.name == AnnotatedPrefix + n || o.name == SegmentedPrefix + n);
      OutputNamesInjective(h, n);
      OutputNamesInjective(n, h);
    }
  }

  lemma ConcatDistinct(a: seq<string>, b: seq<string>)
    requires NoDuplicates(a) && NoDuplicates(b)
    requires forall x | x in a :: x !in b
    ensures NoDuplicates(a + b)
  {
    var ab := a + b;
    forall i, j | 0 <= i < j < |ab| ensures ab[i] != ab[j] {
      if j >= |a| && i < |a| {
        assert ab[i] in a && ab[j] in b;
      }
    }
  }

  /** `procesar_directorio`: the selected names in listing order. */
  function ProcesarDirectorio(cfg: Config, listing: seq<string>, load: string -> Option<Frame>): (r: Result<Batch>)
    ensures r.Ok? ==> forall o | o in r.value.outputs ::
      exists n | n in listing && IsImageName(n) && load(n).Some? ::
        o.name == AnnotatedPrefix + n || o.name == SegmentedPrefix + n
    ensures AllNamed(cfg) ==> r.Ok?
  {
    ProcessNames(cfg, SelectImages(listing), load)
  }

  /** The directory pass over `a + b` is the pass over `a` followed by the pass over `b`. */
  lemma ProcesarDirectorioSplit(cfg: Config, a: seq<string>, b: seq<string>, load: string -> Option<Frame>)
    ensures ProcesarDirectorio(cfg, a + b, load)
         == Join(ProcesarDirectorio(cfg, a, load), ProcesarDirectorio(cfg, b, load))
  {
    SelectImagesSplit(a, b);
    ProcessNamesSplit(cfg, SelectImages(a), SelectImages(b), load);
  }

  /** A listing of one entry runs `detectar_tapon` on it exactly when it has an image
      extension, and otherwise adds nothing and writes nothing. */
  lemma ProcesarDirectorioSingle(cfg: Config, name: string, load: string -> Option<Frame>)
    ensures IsImageName(name) ==> ProcesarDirectorio(cfg, [name], load) == ProcessImage(cfg, name, load)
    ensures !IsImageName(name) ==> ProcesarDirectorio(cfg, [name], load) == Ok(Batch([], []))
  {
    SelectImagesSingle(name);
    ProcessNamesSingle(cfg, name, load);
  }
}

=== FILE: hsv.dfy ===
/** Pixels in OpenCV's 8-bit HSV space and the inclusive colour boxes `cv2.inRange` tests. */
module Hsv {

  datatype Pixel = Pixel(h: int, s: int, v: int)

  /** A lower and an upper corner; the box includes both. */
  datatype ColorRange = ColorRange(lower: Pixel, upper: Pixel)

  /** `cv2.inRange` keeps a pixel when every channel lies between the bounds, both inclusive. */
  predicate Within(p: Pixel, range: ColorRange) {
    && range.lower.h <= p.h <= range.upper.h
    && range.lower.s <= p.s <= range.upper.s
    && range.lower.v <= p.v <= range.upper.v
  }

  /** Bounds ordered channel by channel and inside the channel domains: hue up to 180,
      saturation and value up to 255. */
  predicate WellFormed(range: ColorRange) {
    && 0 <= range.lower.h <= range.upper.h <= 180
    && 0 <= range.lower.s <= range.upper.s <= 255
    && 0 <= range.lower.v <= range.upper.v <= 255
  }
}

=== FILE: markers.dfy ===
/** The seeds handed to `cv2.watershed` for one colour range. The flooding itself is not part
    of this model; only the marker image it starts from is. */
module Markers {
  import opened Masks

  /** What `cv2.connectedComponents(fg)` promises of its label image: background pixels carry
      label 0 and every foreground pixel carries a positive component number. */
  ghost predicate LabelsComponents(labels: Grid<int>, fg: Mask) {
    SameShape(labels, fg) &&
    forall r, c | InGrid(fg, r, c) :: labels[r][c] >= 0 && (labels[r][c] == 0 <==> !fg[r][c])
  }

  /** Three erosions of the cleaned mask. */
  function SureForeground(cleaned: Mask): (fg: Mask)
    ensures Subset(fg, cleaned)
  {
    ErodeN(cleaned, 3)
  }

  /** Three dilations of the cleaned mask. */
  function SureBackground(cleaned: Mask): (bg: Mask)
    ensures Subset(cleaned, bg)
  {
    DilateN(cleaned, 3)
  }

  /** `cv2.subtract(sure_bg, sure_fg)` on the stored 0/255 images. */
  function Unknown(cleaned: Mask): (u: Grid<int>)
    ensures SameShape(u, cleaned)
  {
    Subtract(ToBytes(SureBackground(cleaned)), ToBytes(SureForeground(cleaned)))
  }

  function Label(labels: Grid<int>, r: int, c: int): int {
    if InGrid(labels, r, c) then labels[r][c] else 0
  }

  /** `markers = labels + 1; markers[unknown == 255] = 0`. */
  function Markers(labels: Grid<int>, unknown: Grid<int>): (mk: Grid<int>)
    ensures SameShape(mk, unknown)
  {
    seq(|unknown|, r requires 0 <= r < |unknown| =>
      seq(|unknown[r]|, c requires 0 <= c < |unknown[r]| =>
        if unknown[r][c] == 255 then 0 else Label(labels, r, c) + 1))
  }

  /** The marker image built for one cleaned mask, with `componentsOf` standing for
      `cv2.connectedComponents`. */
  function WatershedMarkers(cleaned: Mask, componentsOf: Mask -> Grid<int>): (mk: Grid<int>)
    ensures SameShape(mk, cleaned)
  {
    Markers(componentsOf(SureForeground(cleaned)), Unknown(cleaned))
  }

  /** The erosion/dilation chain around a cleaned mask: sure foreground inside the mask,
      the mask inside sure background. */
  lemma SureChain(cleaned: Mask)
    ensures Subset(SureForeground(cleaned), cleaned)
    ensures Subset(cleaned, SureBackground(cleaned))
    ensures Subset(SureForeground(cleaned), SureBackground(cleaned))
  {
  }

  /** The unknown band is exactly sure background minus sure foreground, as a set. */
  lemma UnknownIsBand(cleaned: Mask)
    ensures forall r, c | InGrid(cleaned, r, c) ::
      Unknown(cleaned)[r][c] == (if SureBackground(cleaned)[r][c] && !SureForeground(cleaned)[r][c] then 255 else 0)
  {
    SubtractIsMinus(SureBackground(cleaned), SureForeground(cleaned));
  }

  /** Marker 0 falls exactly on the unknown band; elsewhere the marker is the component label
      plus one, so sure-foreground pixels get at least 2 and pixels outside sure background get 1. */
  lemma WatershedMarkerRule(cleaned: Mask, componentsOf: Mask -> Grid<int>)
    requires LabelsComponents(componentsOf(SureForeground(cleaned)), SureForeground(cleaned))
    ensures forall r, c | InGrid(cleaned, r, c) ::
      var mk := WatershedMarkers(cleaned, componentsOf);
      var fg := SureForeground(cleaned);
      var bg := SureBackground(cleaned);
      && (mk[r][c] == 0 <==> bg[r][c] && !fg[r][c])
      && (!(bg[r][c] && !fg[r][c]) ==> mk[r][c] == componentsOf(fg)[r][c] + 1)
      && (fg[r][c] ==> mk[r][c] >= 2)
      && (!bg[r][c] ==> mk[r][c] == 1)
  {
    UnknownIsBand(cleaned);
    SureChain(cleaned);
  }
}

=== FILE: masks.dfy ===
/** Binary masks over the working image and the morphology the detector applies to them:
    `cv2.inRange`, 3x3 erosion and dilation with OpenCV's default border, union, difference,
    and the 0/255 byte images OpenCV actually stores. */
module Masks {
  import opened Hsv

  type Grid<T> = seq<seq<T>>
  type Mask = Grid<bool>

  predicate SameShape<A, B>(a: Grid<A>, b: Grid<B>) {
    |a| == |b| && forall r | 0 <= r < |a| :: |a[r]| == |b[r]|
  }

  predicate InGrid<T>(g: Grid<T>, r: int, c: int) {
    0 <= r < |g| && 0 <= c < |g[r]|
  }

  /** Every pixel set in `a` is set in `b`. */
  ghost predicate Subset(a: Mask, b: Mask) {
    SameShape(a, b) && forall r, c | InGrid(a, r, c) :: a[r][c] ==> b[r][c]
  }

  /** The all-zero mask shaped like `g` (`np.zeros(hsv.shape[:2])`). */
  function Blank<T>(g: Grid<T>): (m: Mask)
    ensures SameShape(m, g)
    ensures forall r, c | InGrid(m, r, c) :: !m[r][c]
  {
    seq(|g|, r requires 0 <= r < |g| => seq(|g[r]|, _ => false))
  }

  /** `cv2.inRange(hsv, lower, upper)` as a mask. */
  function InRange(img: Grid<Pixel>, range: ColorRange): (m: Mask)
    ensures SameShape(m, img)
    ensures forall r, c | InGrid(img, r, c) ::
      m[r][c] <==> (&& range.lower.h <= img[r][c].h <= range.upper.h
                    && range.lower.s <= img[r][c].s <= range.upper.s
                    && range.lower.v <= img[r][c].v <= range.upper.v)
  {
    seq(|img|, r requires 0 <= r < |img| =>
      seq(|img[r]|, c requires 0 <= c < |img[r]| => Within(img[r][c], range)))
  }

  /** A pixel of `m`, or `outside` when (r, c) falls off the image. With the default border
      OpenCV's erosion treats off-image pixels as set and its dilation treats them as clear,
      so in both cases they never change the result. */
  function At(m: Mask, r: int, c: int, outside: bool): bool {
    if InGrid(m, r, c) then m[r][c] else outside
  }

  predicate AllAround(m: Mask, r: int, c: int) {
    && At(m, r - 1, c - 1, true) && At(m, r - 1, c, true) && At(m, r - 1, c + 1, true)
    && At(m, r, c - 1, true)     && At(m, r, c, true)     && At(m, r, c + 1, true)
    && At(m, r + 1, c - 1, true) && At(m, r + 1, c, true) && At(m, r + 1, c + 1, true)
  }

  predicate AnyAround(m: Mask, r: int, c: int) {
    || At(m, r - 1, c - 1, false) || At(m, r - 1, c, false) || At(m, r - 1, c + 1, false)
    || At(m, r, c - 1, false)     || At(m, r, c, false)     || At(m, r, c + 1, false)
    || At(m, r + 1, c - 1, false) || At(m, r + 1, c, false) || At(m, r + 1, c + 1, false)
  }

  /** The 3x3 window around (r, c), clipped to the image. */
  predicate Near(r: int, c: int, i: int, j: int) {
    r - 1 <= i <= r + 1 && c - 1 <= j <= c + 1
  }

  /** One pass of `cv2.erode(m, None)`: the 3x3 square structuring element. */
  function Erode(m: Mask): (e: Mask)
    ensures Subset(e, m)
  {
    seq(|m|, r requires 0 <= r < |m| => seq(|m[r]|, c => AllAround(m, r, c)))
  }

  /** One pass of `cv2.dilate(m, None)`. */
  function Dilate(m: Mask): (d: Mask)
    ensures Subset(m, d)
  {
    seq(|m|, r requires 0 <= r < |m| => seq(|m[r]|, c => AnyAround(m, r, c)))
  }

  /** Erosion keeps a pixel exactly when every pixel of its clipped 3x3 window is set. */
  lemma ErodeIsWindowMinimum(m: Mask, r: int, c: int)
    requires InGrid(m, r, c)
    ensures Erode(m)[r][c] <==> forall i, j | InGrid(m, i, j) && Near(r, c, i, j) :: m[i][j]
  {
    if Erode(m)[r][c] {
      forall i, j | InGrid(m, i, j) && Near(r, c, i, j) ensures m[i][j] {
        assert At(m, i, j, true);
      }
    }
  }

  /** Dilation sets a pixel exactly when some pixel of its clipped 3x3 window is set. */
  lemma DilateIsWindowMaximum(m: Mask, r: int, c: int)
    requires InGrid(m, r, c)
    ensures Dilate(m)[r][c] <==> exists i, j | InGrid(m, i, j) && Near(r, c, i, j) :: m[i][j]
  {
    assert Dilate(m)[r][c] == AnyAround(m, r, c);
    if exists i, j | InGrid(m, i, j) && Near(r, c, i, j) :: m[i][j] {
      var i, j :| InGrid(m, i, j) && Near(r, c, i, j) && m[i][j];
      NeighbourSets(m, r, c, i, j);
    }
    if Dilate(m)[r][c] {
      var i, j := SetNeighbour(m, r, c);
    }
  }

  /** A set pixel anywhere in the window makes `AnyAround` true. */
  lemma NeighbourSets(m: Mask, r: int, c: int, i: int, j: int)
    requires InGrid(m, i, j) && Near(r, c, i, j) && m[i][j]
    ensures AnyAround(m, r, c)
  {
    assert At(m, i, j, false);
    if i == r - 1 {
      assert At(m, r - 1, c - 1, false) || At(m, r - 1, c, false) || At(m, r - 1, c + 1, false);
    } else if i == r {
      assert At(m, r, c - 1, false) || At(m, r, c, false) || At(m, r, c + 1, false);
    } else {
      assert At(m, r + 1, c - 1, false) || At(m, r + 1, c, false) || At(m, r + 1, c + 1, false);
    }
  }

  /** A set pixel of the window that made `AnyAround` true. */
  lemma SetNeighbour(m: Mask, r: int, c: int) returns (i: int, j: int)
    requires AnyAround(m, r, c)
    ensures InGrid(m, i, j) && Near(r, c, i, j) && m[i][j]
  {
    if At(m, r - 1, c - 1, false) { i, j := r - 1, c - 1; }
    else if At(m, r - 1, c, false) { i, j := r - 1, c; }
    else if At(m, r - 1, c + 1, false) { i, j := r - 1, c + 1; }
    else if At(m, r, c - 1, false) { i, j := r, c - 1; }
    else if At(m, r, c, false) { i, j := r, c; }
    else if At(m, r, c + 1, false) { i, j := r, c + 1; }
    else if At(m, r + 1, c - 1, false) { i, j := r + 1, c - 1; }
    else if At(m, r + 1, c, false) { i, j := r + 1, c; }
    else { i, j := r + 1, c + 1; }
  }

  lemma ErodeMonotone(a: Mask, b: Mask)
    requires Subset(a, b)
    ensures Subset(Erode(a), Erode(b))
  {
  }

  lemma DilateMonotone(a: Mask, b: Mask)
    requires Subset(a, b)
    ensures Subset(Dilate(a), Dilate(b))
  {
  }

  /** `cv2.erode(m, None, iterations=k)`: k passes, each one shrinking the mask. */
  function ErodeN(m: Mask, k: nat): (e: Mask)
    ensures Subset(e, m)
    decreases k
  {
    if k == 0 then m else Erode(ErodeN(m, k - 1))
  }

  /** `cv2.dilate(m, None, iterations=k)`: k passes, each one growing the mask. */
  function DilateN(m: Mask, k: nat): (d: Mask)
    ensures Subset(m, d)
    decreases k
  {
    if k == 0 then m else Dilate(DilateN(m, k - 1))
  }

  lemma {:induction false} DilateNMonotone(a: Mask, b: Mask, k: nat)
    requires Subset(a, b)
    ensures Subset(DilateN(a, k), DilateN(b, k))
    decreases k
  {
    if k > 0 {
      DilateNMonotone(a, b, k - 1);
      DilateMonotone(DilateN(a, k - 1), DilateN(b, k - 1));
    }
  }

  /** The cleaned mask of one colour range: one erosion, then two dilations. */
  function Clean(img: Grid<Pixel>, range: ColorRange): (m: Mask)
    ensures SameShape(m, img)
  {
    DilateN(Erode(InRange(img, range)), 2)
  }

  /** Cleaning keeps every pixel whose whole window was in range, and adds only pixels within
      two dilation steps of an in-range pixel. */
  lemma CleanIsBracketed(img: Grid<Pixel>, range: ColorRange)
    ensures Subset(Erode(InRange(img, range)), Clean(img, range))
    ensures Subset(Clean(img, range), DilateN(InRange(img, range), 2))
  {
    DilateNMonotone(Erode(InRange(img, range)), InRange(img, range), 2);
  }

  function Union(a: Mask, b: Mask): (u: Mask)
    requires SameShape(a, b)
    ensures SameShape(u, a)
  {
    seq(|a|, r requires 0 <= r < |a| => seq(|a[r]|, c requires 0 <= c < |a[r]| => a[r][c] || b[r][c]))
  }

  function Minus(a: Mask, b: Mask): (d: Mask)
    requires SameShape(a, b)
    ensures SameShape(d, a)
  {
    seq(|a|, r requires 0 <= r < |a| => seq(|a[r]|, c requires 0 <= c < |a[r]| => a[r][c] && !b[r][c]))
  }

  ghost predicate AllShaped(ms: seq<Mask>, g: Mask) {
    forall i | 0 <= i < |ms| :: SameShape(ms[i], g)
  }

  /** `base` or-ed in turn with each mask of `ms`, the way a loop accumulates them. */
  function OrAll(base: Mask, ms: seq<Mask>): (m: Mask)
    requires AllShaped(ms, base)
    ensures SameShape(m, base)
    decreases |ms|
  {
    if ms == [] then base else Union(OrAll(base, ms[..|ms| - 1]), ms[|ms| - 1])
  }

  /** A pixel of the accumulated mask is set exactly when it is set in the base or in one of
      the accumulated masks. */
  lemma {:induction false} OrAllAt(base: Mask, ms: seq<Mask>, r: int, c: int)
    requires AllShaped(ms, base) && InGrid(base, r, c)
    ensures OrAll(base, ms)[r][c] <==> base[r][c] || exists i | 0 <= i < |ms| :: ms[i][r][c]
    decreases |ms|
  {
    if ms != [] {
      var init := ms[..|ms| - 1];
      OrAllAt(base, init, r, c);
      if exists i | 0 <= i < |ms| :: ms[i][r][c] {
        var i :| 0 <= i < |ms| && ms[i][r][c];
        if i < |ms| - 1 {
          assert init[i][r][c];
        }
      }
      if exists i | 0 <= i < |init| :: init[i][r][c] {
        var i :| 0 <= i < |init| && init[i][r][c];
        assert ms[i][r][c];
      }
    }
  }

  /** When `small` lies inside `big`, `big` splits into `small` and `big - small` with no overlap. */
  lemma MinusPartitions(small: Mask, big: Mask)
    requires Subset(small, big)
    ensures forall r, c | InGrid(big, r, c) ::
      && (big[r][c] <==> small[r][c] || Minus(big, small)[r][c])
      && !(small[r][c] && Minus(big, small)[r][c])
  {
  }

  // ---- the 8-bit images OpenCV stores ---------------------------------------------------

  ghost predicate IsByteGrid(g: Grid<int>) {
    forall r, c | InGrid(g, r, c) :: 0 <= g[r][c] < 256
  }

  /** A mask as OpenCV stores it: 255 where set, 0 elsewhere. */
  function ToBytes(m: Mask): (b: Grid<int>)
    ensures SameShape(b, m)
    ensures IsByteGrid(b)
  {
    seq(|m|, r requires 0 <= r < |m| => seq(|m[r]|, c requires 0 <= c < |m[r]| => if m[r][c] then 255 else 0))
  }

  /** uint8 arithmetic saturates instead of wrapping. */
  function Saturate(x: int): (y: int)
    ensures 0 <= y < 256
    ensures 0 <= x < 256 ==> y == x
    ensures x < 0 ==> y == 0
    ensures x > 255 ==> y == 255
  {
    if x < 0 then 0 else if x > 255 then 255 else x
  }

  /** `cv2.subtract` on two uint8 images. */
  function Subtract(a: Grid<int>, b: Grid<int>): (d: Grid<int>)
    requires SameShape(a, b)
    ensures SameShape(d, a)
    ensures IsByteGrid(d)
  {
    seq(|a|, r requires 0 <= r < |a| => seq(|a[r]|, c requires 0 <= c < |a[r]| => Saturate(a[r][c] - b[r][c])))
  }

  function BitOr(x: int, y: int): int
    requires 0 <= x < 256 && 0 <= y < 256
  {
    ((x as bv8) | (y as bv8)) as int
  }

  /** `cv2.bitwise_or` on two uint8 images. */
  function BitwiseOr(a: Grid<int>, b: Grid<int>): (o: Grid<int>)
    requires SameShape(a, b) && IsByteGrid(a) && IsByteGrid(b)
    ensures SameShape(o, a)
  {
    seq(|a|, r requires 0 <= r < |a| => seq(|a[r]|, c requires 0 <= c < |a[r]| => BitOr(a[r][c], b[r][c])))
  }

  /** On 0/255 images the saturating subtraction is exactly set difference. */
  lemma SubtractIsMinus(a: Mask, b: Mask)
    requires SameShape(a, b)
    ensures Subtract(ToBytes(a), ToBytes(b)) == ToBytes(Minus(a, b))
  {
    var lhs := Subtract(ToBytes(a), ToBytes(b));
    var rhs := ToBytes(Minus(a, b));
    forall r | 0 <= r < |a| ensures lhs[r] == rhs[r] {
    }
  }

  /** On 0/255 images the bitwise or is exactly set union. */
  lemma BitwiseOrIsUnion(a: Mask, b: Mask)
    requires SameShape(a, b)
    ensures BitwiseOr(ToBytes(a), ToBytes(b)) == ToBytes(Union(a, b))
  {
    assert BitOr(0, 0) == 0 && BitOr(0, 255) == 255 && BitOr(255, 0) == 255 && BitOr(255, 255) == 255;
    var lhs := BitwiseOr(ToBytes(a), ToBytes(b));
    var rhs := ToBytes(Union(a, b));
    forall r | 0 <= r < |a| ensures lhs[r] == rhs[r] {
    }
  }
}

=== FILE: outcomes.dfy ===
/** Failure-carrying results shared by the detector, the aggregator and the runner. */
module Outcomes {

  /** A value that may be absent: a failed `cv2.imread`, a missing colour name. */
  datatype Option<+T> = None | Some(value: T)

  /** The two exceptions the decision layer can raise. */
  datatype Failure =
    /** `color_names[i]` read past the end of the name list, for the range at index `index`. */
    | IndexError(index: nat)
    /** `groupby('Color')` on a DataFrame built from no rows, which has no 'Color' column. */
    | MissingColorColumn

  datatype Result<+T> = Ok(value: T) | Err(failure: Failure)
}

=== FILE: palette.dfy ===
/** The hand-tuned HSV ranges and thresholds the repository configures: the list-and-names
    pair of the top-level detector script, the dict of the `src` detector script, and the dict
    `mainExecutable` builds its detector from. */
module Palette {
  import opened Outcomes
  import opened Hsv
  import opened Records
  import opened Detector

  const Azul: ColorRange := ColorRange(Pixel(100, 50, 50), Pixel(140, 255, 255))
  const Verde: ColorRange := ColorRange(Pixel(35, 50, 50), Pixel(85, 255, 255))
  const RojoBajo: ColorRange := ColorRange(Pixel(0, 50, 50), Pixel(10, 255, 255))
  const RojoAlto: ColorRange := ColorRange(Pixel(170, 50, 50), Pixel(180, 255, 255))
  const Amarillo: ColorRange := ColorRange(Pixel(20, 50, 50), Pixel(30, 255, 255))
  const Negro: ColorRange := ColorRange(Pixel(0, 0, 0), Pixel(180, 255, 50))
  const Rosa: ColorRange := ColorRange(Pixel(140, 50, 50), Pixel(170, 255, 255))
  const RosaClaro: ColorRange := ColorRange(Pixel(140, 20, 180), Pixel(170, 80, 255))
  const BlancoAjustado: ColorRange := ColorRange(Pixel(90, 10, 180), Pixel(130, 60, 255))

  /** `color_ranges` of the list-configured detector, in list order. */
  const ListRanges: seq<ColorRange> :=
    [Azul, Verde, RojoBajo, RojoAlto, Amarillo, Negro, Rosa, RosaClaro, BlancoAjustado]

  /** `color_names`, parallel to `ListRanges`: both red ranges are reported as "Rojo". */
  const ListNames: seq<string> :=
    ["Azul", "Verde", "Rojo", "Rojo", "Amarillo", "Negro", "Rosa", "Rosa Claro", "Blanco"]

  /** `color_ranges` of the dict-configured detector, in insertion order. */
  const DictRanges: seq<(string, ColorRange)> :=
    [("Azul", Azul), ("Verde", Verde), ("Rojo_Rango1", RojoBajo), ("Rojo_Rango2", RojoAlto),
     ("Amarillo", Amarillo), ("Negro", Negro), ("Rosa", Rosa), ("Rosa_Claro", RosaClaro),
     ("Blanco_Ajustado", BlancoAjustado)]

  /** The dict `mainExecutable` defines for its own detector, written out again there. */
  const MainRanges: seq<(string, ColorRange)> :=
    [("Azul", ColorRange(Pixel(100, 50, 50), Pixel(140, 255, 255))),
     ("Verde", ColorRange(Pixel(35, 50, 50), Pixel(85, 255, 255))),
     ("Rojo_Rango1", ColorRange(Pixel(0, 50, 50), Pixel(10, 255, 255))),
     ("Rojo_Rango2", ColorRange(Pixel(170, 50, 50), Pixel(180, 255, 255))),
     ("Amarillo", ColorRange(Pixel(20, 50, 50), Pixel(30, 255, 255))),
     ("Negro", ColorRange(Pixel(0, 0, 0), Pixel(180, 255, 50))),
     ("Rosa", ColorRange(Pixel(140, 50, 50), Pixel(170, 255, 255))),
     ("Rosa_Claro", ColorRange(Pixel(140, 20, 180), Pixel(170, 80, 255))),
     ("Blanco_Ajustado", ColorRange(Pixel(90, 10, 180), Pixel(130, 60, 255)))]

  /** The `min_area` every script passes. */
  const ScriptMinArea: real := 500.0

  /** The detector the top-level script builds, the one the `src` script builds, and the one
      `mainExecutable` wraps. */
  function ListDetector(): (cfg: Config)
    ensures |cfg.slots| == 9 && cfg.policy == StrictlyAbove && cfg.minArea == 500.0
    ensures AllNamed(cfg)
  {
    ListConfigNamed(ListRanges, ListNames, ScriptMinArea);
    ListConfig(ListRanges, ListNames, ScriptMinArea)
  }

  function DictDetector(): (cfg: Config)
    ensures |cfg.slots| == 9 && cfg.policy == ZeroDisables && cfg.minArea == 500.0
    ensures AllNamed(cfg)
  {
    DictConfig(DictRanges, ScriptMinArea)
  }

  function MainDetector(): (cfg: Config)
    ensures cfg == DictDetector()
  {
    assert MainRanges == DictRanges;
    DictConfig(MainRanges, ScriptMinArea)
  }

  /** Every configured range is well formed. */
  lemma RangesWellFormed()
    ensures forall i | 0 <= i < |ListRanges| :: WellFormed(ListRanges[i])
    ensures forall i | 0 <= i < |DictRanges| :: WellFormed(DictRanges[i].1)
    ensures forall i | 0 <= i < |MainRanges| :: WellFormed(MainRanges[i].1)
  {
  }

  /** The list detector names both red ranges "Rojo"; the dict detector keeps them apart. */
  lemma RedNaming()
    ensures ListDetector().slots[2].name == ListDetector().slots[3].name == Some("Rojo")
    ensures DictDetector().slots[2].name == Some("Rojo_Rango1")
    ensures DictDetector().slots[3].name == Some("Rojo_Rango2")
  {
  }

  /** The dict's nine keys are distinct, and both detectors test the same boxes in the same order. */
  lemma VariantsShareRanges()
    ensures forall i, j | 0 <= i < j < |DictRanges| :: DictRanges[i].0 != DictRanges[j].0
    ensures |DictRanges| == |ListRanges| == |ListNames| == 9
    ensures forall i | 0 <= i < 9 :: DictRanges[i].1 == ListRanges[i]
  {
  }

  /** The boxes overlap on their shared edges: a hue of 140 lies in both "Azul" and "Rosa", and
      any dark enough pixel lies in "Negro" as well, so one pixel can feed two colours' masks. */
  lemma RangesOverlap()
    ensures Within(Pixel(140, 100, 100), Azul) && Within(Pixel(140, 100, 100), Rosa)
    ensures Within(Pixel(120, 60, 50), Azul) && Within(Pixel(120, 60, 50), Negro)
    ensures Within(Pixel(170, 60, 60), Rosa) && Within(Pixel(170, 60, 60), RojoAlto)
  {
  }
}

=== FILE: records.dfy ===
/** One contour's measurements and the detection record built from them. The measurements
    themselves (`cv2.contourArea`, `cv2.moments`, `cv2.boundingRect`) are taken as given. */
module Records {
  import opened Outcomes

  /** `cv2.boundingRect`: top-left corner, width and height. */
  datatype Rect = Rect(x: int, y: int, w: int, h: int)

  /** What the detector reads off one contour. */
  datatype Contour = Contour(area: real, m00: real, m10: real, m01: real, rect: Rect)

  /** One entry of `tapones_detectados`; the annotated image it also points to is not modelled. */
  datatype Detection = Detection(
    color: string,
    area: real,
    cx: int, cy: int,
    x: int, y: int,
    w: int, h: int,
    aspect: real)

  /** Python's `int()` of a float: truncation toward zero. */
  function Trunc(q: real): (t: int)
    ensures 0.0 <= q ==> t as real <= q < t as real + 1.0
    ensures q < 0.0 ==> t as real - 1.0 < q <= t as real
  {
    if q >= 0.0 then q.Floor else -((-q).Floor)
  }

  /** `w / float(h) if h != 0 else 0`. */
  function Aspect(w: int, h: int): (a: real)
    ensures h != 0 ==> a * (h as real) == w as real
    ensures h == 0 ==> a == 0.0
  {
    if h != 0 then (w as real) / (h as real) else 0.0
  }

  /** The two minimum-area policies: the list-configured detector keeps a contour only when its
      area is strictly above the threshold; the dict-configured one reads a threshold of 0 as
      "no filter". */
  datatype AreaPolicy = StrictlyAbove | ZeroDisables

  /** Under either policy an area above the threshold is kept, and below a non-zero threshold
      nothing is. */
  predicate Admits(policy: AreaPolicy, minArea: real, area: real): (ok: bool)
    ensures area > minArea ==> ok
    ensures ok && minArea != 0.0 ==> area > minArea
  {
    match policy
    case StrictlyAbove => area > minArea
    case ZeroDisables => minArea == 0.0 || area > minArea
  }

  /** A kept area stays kept when it grows, and a kept area stays kept under a lower threshold. */
  lemma AdmitsMonotone(policy: AreaPolicy, minArea: real, area: real, area': real, minArea': real)
    requires Admits(policy, minArea, area)
    requires area <= area' && 0.0 <= minArea' <= minArea
    ensures Admits(policy, minArea, area')
    ensures Admits(policy, minArea', area)
  {
  }

  /** The two policies differ only at a threshold of 0, where the strict one still drops
      contours of area 0 or less and the other keeps everything. */
  lemma PoliciesDifferOnlyAtZero(minArea: real, area: real)
    ensures minArea != 0.0 ==> (Admits(StrictlyAbove, minArea, area) <==> Admits(ZeroDisables, minArea, area))
    ensures Admits(ZeroDisables, 0.0, area)
    ensures Admits(StrictlyAbove, 0.0, area) <==> area > 0.0
  {
  }

  /** The record built for contour `c` under the colour name `name`. */
  ghost predicate Describes(d: Detection, name: string, c: Contour) {
    && c.m00 != 0.0
    && d.color == name
    && d.area == c.area
    && d.cx == Trunc(c.m10 / c.m00) && d.cy == Trunc(c.m01 / c.m00)
    && d.x == c.rect.x && d.y == c.rect.y && d.w == c.rect.w && d.h == c.rect.h
    && d.aspect == Aspect(c.rect.w, c.rect.h)
  }

  /** The shape facts every stored record satisfies, whatever contour it came from. */
  ghost predicate Coherent(d: Detection) {
    && (d.h != 0 ==> d.aspect * (d.h as real) == d.w as real)
    && (d.h == 0 ==> d.aspect == 0.0)
  }

  /** The body of the inner `for contour in contours` loop for one contour of the range at
      position `index`, whose colour name is `name` (absent when the name list is too short).
      `Ok(None)`: the contour is filtered out or degenerate; `Ok(Some(d))`: `d` is appended;
      `Err`: the name lookup raised. */
  function MakeRecord(policy: AreaPolicy, minArea: real, index: nat, name: Option<string>, c: Contour)
    : (r: Result<Option<Detection>>)
    ensures r.Err? <==> Admits(policy, minArea, c.area) && c.m00 != 0.0 && name.None?
    ensures r.Err? ==> r.failure == IndexError(index)
    ensures r.Ok? && r.value.Some? <==> Admits(policy, minArea, c.area) && c.m00 != 0.0 && name.Some?
    ensures r.Ok? && r.value.Some? ==> Describes(r.value.value, name.value, c) && Coherent(r.value.value)
  {
    if !Admits(policy, minArea, c.area) then Ok(None)
    else if c.m00 == 0.0 then Ok(None)
    else if name.None? then Err(IndexError(index))
    else
      var w, h := c.rect.w, c.rect.h;
      Ok(Some(Detection(name.value, c.area, Trunc(c.m10 / c.m00), Trunc(c.m01 / c.m00),
                        c.rect.x, c.rect.y, w, h, Aspect(w, h))))
  }

  /** The centroid lies within one pixel of the exact moment ratio, on the side of zero. */
  lemma CentroidTruncates(d: Detection, name: string, c: Contour)
    requires Describes(d, name, c)
    ensures -1.0 < c.m10 / c.m00 - d.cx as real < 1.0
    ensures -1.0 < c.m01 / c.m00 - d.cy as real < 1.0
    ensures d.cx == 0 || (d.cx > 0 <==> c.m10 / c.m00 > 0.0)
    ensures d.cy == 0 || (d.cy > 0 <==> c.m01 / c.m00 > 0.0)
  {
  }
}

=== FILE: runner.dfy ===
/** `MainExecutable.ejecutar`: process the input directory on the first call only, guarded by
    the attribute `estimaciones_obtenidas` on the detector, and return the summary each time.
    The directory listing and `cv2.imread` are parameters, fixed for the life of the object. */
module Runner {
  import opened Outcomes
  import opened Records
  import opened Detector
  import opened Directory
  import opened Summary

  /** The detector's configuration and `tapones_detectados`, and whether the detector carries
      `estimaciones_obtenidas`. */
  datatype MainExecutable = MainExecutable(cfg: Config, records: seq<Detection>, obtained: bool)

  /** A freshly constructed detector wrapped by a fresh `MainExecutable`. */
  function Fresh(cfg: Config): (m: MainExecutable)
    ensures m.records == [] && !m.obtained
  {
    MainExecutable(cfg, [], false)
  }

  /** The state after a call and the value it returns (or the exception it raises). */
  datatype Step = Step(next: MainExecutable, out: Result<seq<Row>>)

  /** What `procesar_directorio()` appends to `tapones_detectados`, or the exception it raises. */
  function Processed(cfg: Config, listing: seq<string>, load: string -> Option<Frame>): (run: Result<seq<Detection>>)
    ensures run.Ok? <==> ProcesarDirectorio(cfg, listing, load).Ok?
    ensures run.Ok? ==> run.value == ProcesarDirectorio(cfg, listing, load).value.records
    ensures AllNamed(cfg) ==> run.Ok?
  {
    match ProcesarDirectorio(cfg, listing, load)
    case Ok(batch) => Ok(batch.records)
    case Err(e) => Err(e)
  }

  /** The state one call of `ejecutar()` leaves behind when its directory pass, if it happens,
      yields `run`. The first `get_estimaciones()` runs before the flag is set and raises
      exactly on an empty list (`Summary.Estimaciones`), so the flag ends up set exactly when
      the list is non-empty; `Call` states that link. */
  function Next(m: MainExecutable, run: Result<seq<Detection>>): (n: MainExecutable)
    ensures n.cfg == m.cfg
    ensures m.obtained || run.Err? ==> n == m
    ensures !m.obtained && run.Ok? ==>
      && n.records == m.records + run.value
      && (n.obtained <==> n.records != [])
      && (n.obtained <==> Estimaciones(n.records).Ok?)
  {
    if m.obtained || run.Err? then m
    else
      var records := m.records + run.value;
      MainExecutable(m.cfg, records, records != [])
  }

  /** One call of `ejecutar()` whose directory pass, if it happens, yields `run`. */
  function Call(m: MainExecutable, run: Result<seq<Detection>>): (s: Step)
    ensures m.obtained ==> s.next == m && s.out == Estimaciones(m.records)
    ensures !m.obtained && run.Ok? ==>
      && s.next.cfg == m.cfg
      && s.next.records == m.records + run.value
      && s.out == Estimaciones(s.next.records)
      && (s.next.obtained <==> Estimaciones(s.next.records).Ok?)
      && (s.next.obtained <==> s.next.records != [])
    ensures !m.obtained && run.Err? ==> s.next == m && s.out == Err(run.failure)
    ensures !m.obtained && s.next.obtained ==> s.out.Ok? && s.next.records != []
    ensures s.next == Next(m, run)
  {
    var next := Next(m, run);
    if !m.obtained && run.Err? then Step(m, Err(run.failure))
    else Step(next, Estimaciones(next.records))
  }

  /** One call of `ejecutar()` on the detector's input directory. */
  function Ejecutar(m: MainExecutable, listing: seq<string>, load: string -> Option<Frame>): (s: Step)
    ensures m.obtained ==> s.next == m && s.out == Estimaciones(m.records)
    ensures !m.obtained && ProcesarDirectorio(m.cfg, listing, load).Ok? ==>
      && s.next.cfg == m.cfg
      && s.next.records == m.records + ProcesarDirectorio(m.cfg, listing, load).value.records
      && s.out == Estimaciones(s.next.records)
      && (s.next.obtained <==> s.next.records != [])
    ensures !m.obtained && ProcesarDirectorio(m.cfg, listing, load).Err? ==> s.next == m && s.out.Err?
    ensures !m.obtained && s.next.obtained ==> s.out.Ok? && s.next.records != []
  {
    Call(m, Processed(m.cfg, listing, load))
  }

  /** Once the flag is set a call changes nothing, so two consecutive calls return the same
      summary. */
  lemma ConsecutiveCallsAgree(m: MainExecutable, run: Result<seq<Detection>>)
    ensures Call(m, run).next.obtained ==> Call(Call(m, run).next, run) == Call(m, run)
  {
  }

  /** The state after `k` calls. The configuration never changes, and the listing and the files
      are fixed, so every directory pass yields the same `run`. */
  function After(m: MainExecutable, k: nat, run: Result<seq<Detection>>): MainExecutable
    decreases k
  {
    if k == 0 then m else After(Next(m, run), k - 1, run)
  }

  /** No call replaces the detector, so every directory pass within `After` runs with the
      configuration it started with. */
  lemma {:induction false} ConfigNeverChanges(m: MainExecutable, k: nat, run: Result<seq<Detection>>)
    ensures After(m, k, run).cfg == m.cfg
    decreases k
  {
    if k > 0 {
      ConfigNeverChanges(Next(m, run), k - 1, run);
    }
  }

  /** Starting from a fresh object, the directory's records are never appended twice: after any
      number of calls the list is empty or holds exactly one run's records, and the flag is set
      exactly when it is non-empty. */
  lemma {:induction false} ProcessedAtMostOnce(cfg: Config, k: nat, run: seq<Detection>)
    ensures var m := After(Fresh(cfg), k, Ok(run));
            && m.cfg == cfg
            && (m.records == [] || m.records == run)
            && (m.obtained <==> m.records != [])
            && (k > 0 ==> m.records == run)
    decreases k
  {
    if k > 0 {
      var m1 := Next(Fresh(cfg), Ok(run));
      assert m1.records == [] + run;
      assert [] + run == run;
      StaysAfterFirst(m1, k - 1, run);
    }
  }

  /** Every call after the first leaves the state as the first call left it. */
  lemma StaysAfterFirst(m: MainExecutable, k: nat, run: seq<Detection>)
    requires m.obtained || (m.records == [] && run == [])
    ensures After(m, k, Ok(run)) == m
  {
    CallKeeps(m, run);
    FixedPoint(m, k, Ok(run));
  }

  /** A state that one call leaves unchanged stays unchanged by any number of calls. */
  lemma {:induction false} FixedPoint(m: MainExecutable, k: nat, run: Result<seq<Detection>>)
    requires Next(m, run) == m
    ensures After(m, k, run) == m
    decreases k
  {
    if k > 0 {
      FixedPoint(m, k - 1, run);
    }
  }

  /** A call on a state that is already processed, or that processed a run with no records,
      returns that same state. */
  lemma CallKeeps(m: MainExecutable, run: seq<Detection>)
    requires m.obtained || (m.records == [] && run == [])
    ensures Next(m, Ok(run)) == m
  {
    if !m.obtained {
      assert m.records + run == [];
    }
  }
}

=== FILE: summary.dfy ===
/** `get_estimaciones`: group the detection records by colour into count, mean area and total
    area, one row per colour in the ascending key order pandas' `groupby` produces. */
module Summary {
  import opened Outcomes
  import opened Records

  // ---- Python's ordering of str -------------------------------------------------------

  /** Python's `<` on str: the first differing code point decides, and a proper prefix comes first. */
  predicate Below(a: string, b: string): (ok: bool)
    ensures ok ==> a != b
    ensures |a| < |b| && a == b[..|a|] ==> ok
    decreases |a|
  {
    if a == [] then b != []
    else if b == [] then false
    else if a[0] != b[0] then a[0] < b[0]
    else Below(a[1..], b[1..])
  }

  lemma {:induction false} BelowIrreflexive(a: string)
    ensures !Below(a, a)
    decreases |a|
  {
    if a != [] {
      BelowIrreflexive(a[1..]);
    }
  }

  lemma {:induction false} BelowTransitive(a: string, b: string, c: string)
    requires Below(a, b) && Below(b, c)
    ensures Below(a, c)
    decreases |a|
  {
    if a != [] && a[0] == b[0] && b[0] == c[0] {
      BelowTransitive(a[1..], b[1..], c[1..]);
    }
  }

  lemma {:induction false} BelowTotal(a: string, b: string)
    requires a != b
    ensures Below(a, b) || Below(b, a)
    decreases |a|
  {
    if a != [] && b != [] && a[0] == b[0] {
      assert a == [a[0]] + a[1..] && b == [b[0]] + b[1..];
      BelowTotal(a[1..], b[1..]);
    }
  }

  ghost predicate StrictlySorted(cs: seq<string>) {
    forall i, j | 0 <= i < j < |cs| :: Below(cs[i], cs[j])
  }

  lemma SortedHasNoDuplicates(cs: seq<string>)
    requires StrictlySorted(cs)
    ensures forall i, j | 0 <= i < j < |cs| :: cs[i] != cs[j]
  {
    forall i, j | 0 <= i < j < |cs| ensures cs[i] != cs[j] {
      BelowIrreflexive(cs[i]);
    }
  }

  lemma BelowAllOfSorted(c: string, cs: seq<string>)
    requires StrictlySorted(cs) && cs != [] && Below(c, cs[0])
    ensures forall x | x in cs :: Below(c, x)
  {
    forall x | x in cs ensures Below(c, x) {
      if x != cs[0] {
        var j :| 0 <= j < |cs| && cs[j] == x;
        BelowTransitive(c, cs[0], x);
      }
    }
  }

  /** Insert a key into an ascending key list, unless it is already there. */
  function Insert(cs: seq<string>, c: string): (r: seq<string>)
    requires StrictlySorted(cs)
    ensures StrictlySorted(r)
    ensures forall x :: x in r <==> x in cs || x == c
    decreases |cs|
  {
    if cs == [] then [c]
    else if c == cs[0] then cs
    else if Below(c, cs[0]) then
      BelowAllOfSorted(c, cs);
      [c] + cs
    else
      BelowTotal(c, cs[0]);
      var rest := Insert(cs[1..], c);
      assert forall x | x in rest :: Below(cs[0], x);
      [cs[0]] + rest
  }

  // ---- the reference: one colour at a time --------------------------------------------

  /** How many records carry colour `c`. */
  function Count(ds: seq<Detection>, c: string): nat
    decreases |ds|
  {
    if ds == [] then 0 else (if ds[0].color == c then 1 else 0) + Count(ds[1..], c)
  }

  /** The sum of the areas of the records with colour `c`. */
  function TotalArea(ds: seq<Detection>, c: string): real
    decreases |ds|
  {
    if ds == [] then 0.0 else (if ds[0].color == c then ds[0].area else 0.0) + TotalArea(ds[1..], c)
  }

  lemma {:induction false} CountSnoc(ds: seq<Detection>, d: Detection, c: string)
    ensures Count(ds + [d], c) == Count(ds, c) + (if d.color == c then 1 else 0)
    ensures TotalArea(ds + [d], c) == TotalArea(ds, c) + (if d.color == c then d.area else 0.0)
    decreases |ds|
  {
    if ds == [] {
      assert ds + [d] == [d];
    } else {
      assert (ds + [d])[1..] == ds[1..] + [d];
      CountSnoc(ds[1..], d, c);
    }
  }

  lemma {:induction false} CountPositive(ds: seq<Detection>, c: string)
    ensures Count(ds, c) > 0 <==> exists d | d in ds :: d.color == c
    ensures Count(ds, c) == 0 ==> TotalArea(ds, c) == 0.0
    decreases |ds|
  {
    if ds != [] {
      CountPositive(ds[1..], c);
      if exists d | d in ds :: d.color == c {
        var d :| d in ds && d.color == c;
        if d != ds[0] {
          assert d in ds[1..];
        }
      }
    }
  }

  // ---- the grouping pass --------------------------------------------------------------

  datatype Acc = Acc(count: nat, total: real)

  /** One pass over the records, bumping the accumulator of each record's colour. */
  function Group(ds: seq<Detection>): (g: map<string, Acc>)
    ensures forall c :: c in g <==> exists d | d in ds :: d.color == c
    decreases |ds|
  {
    if ds == [] then map[]
    else
      var init, d := ds[..|ds| - 1], ds[|ds| - 1];
      assert ds == init + [d];
      Bump(Group(init), d)
  }

  /** Adds one record to its colour's accumulator, opening the accumulator if needed. */
  function Bump(g: map<string, Acc>, d: Detection): (g': map<string, Acc>)
    ensures g'.Keys == g.Keys + {d.color}
  {
    g[d.color := if d.color in g then Acc(g[d.color].count + 1, g[d.color].total + d.area) else Acc(1, d.area)]
  }

  /** The grouping pass agrees with the colour-by-colour reference. */
  lemma {:induction false} GroupIsPerColour(ds: seq<Detection>)
    ensures forall c | c in Group(ds) :: Group(ds)[c] == Acc(Count(ds, c), TotalArea(ds, c))
    decreases |ds|
  {
    if ds != [] {
      var init, d := ds[..|ds| - 1], ds[|ds| - 1];
      assert ds == init + [d];
      GroupIsPerColour(init);
      GroupStep(init, d);
    }
  }

  /** One record more keeps the grouping pass in step with the reference. */
  lemma GroupStep(init: seq<Detection>, d: Detection)
    requires forall c | c in Group(init) :: Group(init)[c] == Acc(Count(init, c), TotalArea(init, c))
    ensures forall c | c in Group(init + [d]) ::
      Group(init + [d])[c] == Acc(Count(init + [d], c), TotalArea(init + [d], c))
  {
    forall c | c in Group(init + [d])
      ensures Group(init + [d])[c] == Acc(Count(init + [d], c), TotalArea(init + [d], c))
    {
      GroupStepAt(init, d, c);
    }
  }

  /** The same, one colour at a time: if colour `c`'s accumulator agreed with the reference
      before `d`, it agrees after. */
  lemma GroupStepAt(init: seq<Detection>, d: Detection, c: string)
    ensures c in Group(init + [d]) &&
            (c in Group(init) ==> Group(init)[c] == Acc(Count(init, c), TotalArea(init, c)))
        ==> Group(init + [d])[c] == Acc(Count(init + [d], c), TotalArea(init + [d], c))
  {
    GroupSnoc(init, d);
    CountSnoc(init, d, c);
    if c == d.color && c !in Group(init) {
      CountPositive(init, c);
    }
  }

  /** The grouping pass over `init + [d]` is the pass over `init` with `d` added. */
  lemma GroupSnoc(init: seq<Detection>, d: Detection)
    ensures Group(init + [d]) == Bump(Group(init), d)
  {
    var ds := init + [d];
    assert ds[..|ds| - 1] == init;
    assert ds[|ds| - 1] == d;
  }

  /** The distinct colours in ascending order. */
  function SortedColors(ds: seq<Detection>): (cs: seq<string>)
    ensures StrictlySorted(cs)
    ensures forall c :: c in cs <==> exists d | d in ds :: d.color == c
    decreases |ds|
  {
    if ds == [] then []
    else
      var init, d := ds[..|ds| - 1], ds[|ds| - 1];
      assert ds == init + [d];
      Insert(SortedColors(init), d.color)
  }

  // ---- the summary table --------------------------------------------------------------

  /** One row of `resumen_estadisticas`. */
  datatype Row = Row(color: string, count: nat, mean: real, total: real)

  function Rows(cs: seq<string>, g: map<string, Acc>): (rows: seq<Row>)
    requires forall c | c in cs :: c in g && g[c].count > 0
    ensures |rows| == |cs|
    ensures forall k | 0 <= k < |cs| ::
      rows[k] == Row(cs[k], g[cs[k]].count, g[cs[k]].total / (g[cs[k]].count as real), g[cs[k]].total)
    decreases |cs|
  {
    if cs == [] then []
    else [Row(cs[0], g[cs[0]].count, g[cs[0]].total / (g[cs[0]].count as real), g[cs[0]].total)] + Rows(cs[1..], g)
  }

  function SumCounts(rows: seq<Row>): nat
    decreases |rows|
  {
    if rows == [] then 0 else rows[0].count + SumCounts(rows[1..])
  }

  /** How often `x` occurs in `cs`. */
  function Occurrences(cs: seq<string>, x: string): nat
    decreases |cs|
  {
    if cs == [] then 0 else (if cs[0] == x then 1 else 0) + Occurrences(cs[1..], x)
  }

  lemma {:induction false} OccursOnce(cs: seq<string>, x: string)
    requires forall i, j | 0 <= i < j < |cs| :: cs[i] != cs[j]
    requires x in cs
    ensures Occurrences(cs, x) == 1
    decreases |cs|
  {
    if cs[0] == x {
      OccursNever(cs[1..], x);
    } else {
      OccursOnce(cs[1..], x);
    }
  }

  lemma {:induction false} OccursNever(cs: seq<string>, x: string)
    requires x !in cs
    ensures Occurrences(cs, x) == 0
    decreases |cs|
  {
    if cs != [] {
      OccursNever(cs[1..], x);
    }
  }

  /** Each record is counted in exactly one row: the counts add up to the number of records. */
  lemma {:induction false} CountsCoverRecords(cs: seq<string>, ds: seq<Detection>)
    requires forall i, j | 0 <= i < j < |cs| :: cs[i] != cs[j]
    requires forall d | d in ds :: d.color in cs
    ensures CountSum(cs, ds) == |ds|
    decreases |ds|
  {
    if ds == [] {
      CountSumEmpty(cs);
    } else {
      CountSumCons(cs, ds);
      OccursOnce(cs, ds[0].color);
      CountsCoverRecords(cs, ds[1..]);
    }
  }

  /** The counts of the colours `cs`, summed. */
  function CountSum(cs: seq<string>, ds: seq<Detection>): nat
    decreases |cs|
  {
    if cs == [] then 0 else Count(ds, cs[0]) + CountSum(cs[1..], ds)
  }

  lemma {:induction false} CountSumEmpty(cs: seq<string>)
    ensures CountSum(cs, []) == 0
    decreases |cs|
  {
    if cs != [] {
      CountSumEmpty(cs[1..]);
    }
  }

  lemma {:induction false} CountSumCons(cs: seq<string>, ds: seq<Detection>)
    requires ds != []
    ensures CountSum(cs, ds) == Occurrences(cs, ds[0].color) + CountSum(cs, ds[1..])
    decreases |cs|
  {
    if cs != [] {
      CountSumCons(cs[1..], ds);
    }
  }

  lemma {:induction false} SumCountsIsCountSum(cs: seq<string>, g: map<string, Acc>, ds: seq<Detection>)
    requires forall c | c in cs :: c in g && g[c].count > 0 && g[c].count == Count(ds, c)
    ensures SumCounts(Rows(cs, g)) == CountSum(cs, ds)
    decreases |cs|
  {
    if cs != [] {
      SumCountsIsCountSum(cs[1..], g, ds);
      assert Rows(cs, g)[1..] == Rows(cs[1..], g);
    }
  }

  /** The rows for a non-empty record list, colours ascending. */
  function Table(ds: seq<Detection>): (rows: seq<Row>)
    requires ds != []
  {
    TableKeysGrouped(ds);
    Rows(SortedColors(ds), Group(ds))
  }

  lemma TableKeysGrouped(ds: seq<Detection>)
    ensures forall c | c in SortedColors(ds) :: c in Group(ds) && Group(ds)[c].count > 0
  {
    GroupIsPerColour(ds);
    forall c | c in SortedColors(ds) ensures c in Group(ds) && Group(ds)[c].count > 0 {
      CountPositive(ds, c);
    }
  }

  lemma TableOrderAndCoverage(ds: seq<Detection>)
    requires ds != []
    ensures StrictlySorted(seq(|Table(ds)|, k requires 0 <= k < |Table(ds)| => Table(ds)[k].color))
    ensures forall d | d in ds :: exists k | 0 <= k < |Table(ds)| :: Table(ds)[k].color == d.color
  {
    var cs, rows := SortedColors(ds), Table(ds);
    assert seq(|rows|, k requires 0 <= k < |rows| => rows[k].color) == cs;
    forall d | d in ds ensures exists k | 0 <= k < |rows| :: rows[k].color == d.color {
      assert d.color in cs;
      var k :| 0 <= k < |cs| && cs[k] == d.color;
      assert rows[k].color == d.color;
    }
  }

  lemma TableRowsMatchReference(ds: seq<Detection>)
    requires ds != []
    ensures forall k | 0 <= k < |Table(ds)| ::
      && Table(ds)[k].count == Count(ds, Table(ds)[k].color) > 0
      && Table(ds)[k].total == TotalArea(ds, Table(ds)[k].color)
      && Table(ds)[k].mean == Table(ds)[k].total / (Table(ds)[k].count as real)
  {
    var g, cs, rows := Group(ds), SortedColors(ds), Table(ds);
    GroupIsPerColour(ds);
    TableKeysGrouped(ds);
    forall k | 0 <= k < |rows|
      ensures && rows[k].count == Count(ds, rows[k].color) > 0
              && rows[k].total == TotalArea(ds, rows[k].color)
              && rows[k].mean == rows[k].total / (rows[k].count as real)
    {
      var c := cs[k];
      assert c in cs;
      assert rows[k] == Row(c, g[c].count, g[c].total / (g[c].count as real), g[c].total);
    }
  }

  lemma TableCountsAddUp(ds: seq<Detection>)
    requires ds != []
    ensures SumCounts(Table(ds)) == |ds|
  {
    var g, cs := Group(ds), SortedColors(ds);
    GroupIsPerColour(ds);
    TableKeysGrouped(ds);
    SortedHasNoDuplicates(cs);
    SumCountsIsCountSum(cs, g, ds);
    forall d | d in ds ensures d.color in cs {
    }
    CountsCoverRecords(cs, ds);
  }

  /** `get_estimaciones()`: the DataFrame built from no records has no 'Color' column, so the
      grouping raises; otherwise one row per colour in ascending order, with its record count,
      its total area and their quotient as the mean, and the counts add up to the record count. */
  function Estimaciones(ds: seq<Detection>): (r: Result<seq<Row>>)
    ensures r.Err? <==> ds == []
    ensures r.Err? ==> r.failure == MissingColorColumn
    ensures r.Ok? ==> StrictlySorted(seq(|r.value|, k requires 0 <= k < |r.value| => r.value[k].color))
    ensures r.Ok? ==> forall d | d in ds :: exists k | 0 <= k < |r.value| :: r.value[k].color == d.color
    ensures r.Ok? ==> forall k | 0 <= k < |r.value| ::
      && r.value[k].count == Count(ds, r.value[k].color) > 0
      && r.value[k].total == TotalArea(ds, r.value[k].color)
      && r.value[k].mean == r.value[k].total / (r.value[k].count as real)
    ensures r.Ok? ==> SumCounts(r.value) == |ds|
  {
    if ds == [] then Err(MissingColorColumn)
    else
      var rows := Table(ds);
      TableOrderAndCoverage(ds);
      TableRowsMatchReference(ds);
      TableCountsAddUp(ds);
      Ok(rows)
  }
}
